=== FILE: README.md ===
# Conference bot: a Dafny model of `tg_bot.py`

`tg_bot.py` is a Telegram bot for a conference. Its users have one of three
roles: `user`, `speaker` or `admin`.

- Users ask speakers questions and read their answers.
- Speakers get their role by answering a password challenge. The challenge is
  rate-limited: three wrong answers block the user for 300 seconds.
- Speakers and admins create events. Every known user except the creator hears about a new event.
- The operator (`ADMIN_ID`) has an inline admin panel. From it they list and
  inspect users, speakers, events and questions. They can demote a user to
  `user`, delete a user with everything they sent or received, delete a
  speaker record, and delete events and questions by position. They can also
  broadcast a text to every other known user.

All state lives in one JSON document:

- `roles`: user id to role;
- `events`: a list;
- `speakers`: user id to display name;
- `questions`: a list;
- `password_attempts`: user id to the challenge counters.

Multi-step conversations use "next-step handlers". A handler waits for the
sender's next text message, whatever that message says.

The model is purely functional. Handling one update is a function from the
document, the sender's pending continuation and the update to a `Step`:

- the new document;
- the new continuation;
- the reply;
- the set of keys a `notify_all` fan-out tries to reach;
- the one user notified directly.

Modules follow the program's structure:

| module | contents |
|---|---|
| `Base` | `Option`, map lookup |
| `Seqs` | list comprehension (`Filter`), positional selection, `list.pop(i)` |
| `Text` | Python's `str.strip`, `str.split(sep, maxsplit)`, `str(int)` and `int(str)` |
| `Store` | the document; `is_back`, `get_role`/`set_role`, `register_speaker`, `remove_user`, `notify_all`'s recipients |
| `Dialog` | continuations, replies, `Step` |
| `Gate` | the speaker password challenge |
| `Workflows` | `/start`; creating an event; asking, answering and reading questions; broadcast |
| `Admin` | the admin panel |
| `Router` | the callback handlers' filters, in registration order, and the arguments they split off |
| `Bot` | dispatch of one message or one button press |

How the model maps the source:

- **Time.** The clock is the integer parameter `now`.
- **Ids.** User ids are integers. The document's keys are their decimal forms (`Key(uid)` = `str(uid)`).
- **Parsing.** `int()` on callback arguments is modelled with CPython's rules for ASCII digits:
  - surrounding whitespace is skipped: every character `str.isspace()` accepts except the ASCII separators U+001C..U+001F, which `str.strip()` removes but `int()` rejects;
  - an optional sign is allowed;
  - single underscores may sit between digits.

  Where Python raises, the model's `ParseInt` gives `None`. A handler that
  raises gives the reply `Aborted`, with the document in the state the handler
  had reached, and the bot goes on to the next update (see "Left out").

## Model

| member | source | states |
|---|---|---|
| Base.Lookup | tg_bot.py:462 | `dict.get(k)`: a value exactly when the key is present, and then the stored one |
| Seqs.Filter | tg_bot.py:51 | a list comprehension keeps exactly the elements that pass the test and is never longer than its input |
| Seqs.FilterExact | tg_bot.py:51 | the comprehension keeps the input order (a subsequence) and the full multiplicity of every passing element, and drops every failing one |
| Seqs.NthIndex | tg_bot.py:296-299 | the `n`-th entry of a filtered list sits at a position of the full list that holds the same element and has exactly `n` matching entries before it |
| Seqs.RemoveAt | tg_bot.py:501 | `list.pop(i)`: one entry shorter; earlier entries stay, later ones move down by one, and exactly the removed element leaves the multiset |
| Text.Strip | tg_bot.py:39-40 | `str.strip()`, and the whitespace skipping of `int()`: never longer than its input, and neither end of the result is a blank of that kind |
| Text.StripPadded | tg_bot.py:39-40 | stripping any whitespace padding off a text that does not start or end in whitespace gives that text back |
| Text.StripFrame | tg_bot.py:39-40 | every text is its stripped core with blanks before and after it, so `strip` removes only whitespace and only at the ends |
| Text.SplitMax | tg_bot.py:254 | `str.split(sep, maxsplit)`: between 1 and `maxsplit + 1` pieces that join back to the input; no piece but the last holds the separator, and the last doesn't either when fewer than `maxsplit` cuts were made |
| Text.FieldAfterPrefix | tg_bot.py:433 | for a token that starts with a prefix of `k` separator-terminated pieces, `split(sep, k)` has `k + 1` fields and the last is exactly what follows the prefix |
| Text.IntToStr | tg_bot.py:43 | `str(n)`: a minus sign exactly for a negative number, then decimal digits without a leading zero ("0" alone for zero) |
| Text.ParseInt | tg_bot.py:295 | `int()`: an empty or all-whitespace text and a lone sign raise; an accepted text, with `int()`'s whitespace skipped, starts with a digit or a sign, ends in a digit, holds no doubled underscore, and is negative only after a leading minus |
| Text.ParsePadded | tg_bot.py:295 | `int()` accepts a number with any of its whitespace around it, with the value of the bare number |
| Text.SeparatorRejected | tg_bot.py:531 | a leading or trailing U+001C..U+001F is dropped by `strip()` but makes `int()` raise |
| Text.NatToStr | tg_bot.py:42-44 | `str(n)` of a non-negative number: decimal digits only, no leading zero, with value `n` |
| Text.ParseIntToStr | tg_bot.py:481 | `int(str(n)) == n` for every integer |
| Store.KeyInjective | tg_bot.py:42-44 | distinct user ids get distinct document keys, and equal ids equal keys |
| Store.IsBack | tg_bot.py:39-40 | a text reads as "back" only if it is one of the three labels with whitespace, and nothing else, around it |
| Store.BackLabelsPadded | tg_bot.py:37-40 | each of the three back labels is recognised with any whitespace around it (the converse of `Store.IsBack`'s contract) |
| Store.GetRole | tg_bot.py:54-55 | the stored role, and `user` for an id without an entry |
| Store.SetRole | tg_bot.py:42-44 | the key gets the role, every other key keeps its role, the key set gains only that key, and nothing else changes |
| Store.RegisterSpeaker | tg_bot.py:57-59 | the speaker entry is set to the name, other entries and the rest of the document are unchanged |
| Store.AnswersOf | tg_bot.py:320 | exactly the questions from the user that have a non-empty answer: a subsequence of the log, each such question with its full multiplicity and no other question |
| Store.QuestionsTo | tg_bot.py:280 | exactly the questions addressed to the user: a subsequence of the log, each such question with its full multiplicity and no other question |
| Store.RemoveUser | tg_bot.py:46-52 | the role and speaker entries are gone and others kept; with a numeric key, exactly the questions not from or to that user remain; with a non-numeric key the questions are unchanged |
| Store.CascadeDelete | tg_bot.py:46-52 | deleting by a real id never raises; afterwards no entry or question refers to the id, the remaining questions keep their order and multiplicities, and the events are untouched |
| Store.Recipients | tg_bot.py:74-83 | `notify_all` tries every key of the role table except the excluded one, and nobody else |
| Gate.EnsureAttempts | tg_bot.py:158-159 | `setdefault`: afterwards the record exists; an existing record is untouched, a missing one becomes zero tries |
| Gate.RequestSpeaker | tg_bot.py:155-166 | the only change is the default record and no try is used; while blocked the challenge does not start and a positive wait is reported, otherwise it starts |
| Gate.Admit | tg_bot.py:175-180 | the right password: role `speaker`, the name registered, the record reset to exactly zero tries and no block, the challenge over |
| Gate.Penalize | tg_bot.py:182-189 | a wrong password adds one try; at three tries the user is blocked for 300 seconds from now and the challenge ends, below it the challenge goes on with the remaining tries reported |
| Gate.CheckSecret | tg_bot.py:168-189 | a back label returns to the menu with nothing changed; otherwise the right password admits and a wrong one penalizes, as above |
| Gate.WrongBelowLimit | tg_bot.py:182-189 | a wrong answer below the limit adds one try and keeps the challenge open |
| Gate.WrongAtLimit | tg_bot.py:182-186 | the wrong answer that reaches the limit records three tries and a block until `now + 300` |
| Gate.ThreeWrongAnswersBlock | tg_bot.py:155-189 | from a clean record, three wrong answers report 2, then 1 remaining try, then block; during the next 300 seconds the challenge cannot be re-entered |
| Gate.ReblockAfterExpiry | tg_bot.py:162-186 | tries are never reset by an expired block, so after it the first wrong answer blocks again at once |
| Workflows.Start | tg_bot.py:137-142 | a user without a role gets `admin` if they are the operator and `user` otherwise; an existing role is never changed; the menu of the resulting role is shown |
| Workflows.StartAssignsOnce | tg_bot.py:137-142 | the first role is `admin` exactly for the operator; a stored role is kept; a repeated `/start` changes nothing |
| Workflows.CreateEventBegin | tg_bot.py:193-198 | only speakers and admins start the conversation; users are refused |
| Workflows.TitleStep | tg_bot.py:200-205 | a back label ends the conversation; any other text becomes the title, as is |
| Workflows.DescriptionStep | tg_bot.py:207-222 | exactly one event is appended, named after the creator's speaker entry or else their first name; the rest of the document is unchanged; everyone but the creator is notified |
| Workflows.CreateEventConversation | tg_bot.py:193-222 | the whole conversation appends exactly the event built from the two answers, and a back label at either step leaves the document as it was |
| Workflows.DescriptionAppends | tg_bot.py:210-222 | the appended event is the one built from title, description, creator and clock, and the fan-out is every known user but the creator |
| Workflows.AskBegin | tg_bot.py:252-256 | pressing a speaker's button opens a question continuation for that speaker's key |
| Workflows.QuestionStep | tg_bot.py:258-273 | appends one unanswered question from the sender to `int(key)` and notifies that speaker; a back label changes nothing; a non-numeric key raises before anything is appended |
| Workflows.AnswerBegin | tg_bot.py:293-301 | the index counts within the sender's own questions: a bad number raises, an out-of-range index is refused, otherwise the continuation remembers the log position of the picked question: it holds that question, is addressed to the sender, and has exactly `idx` of the sender's questions before it |
| Workflows.SetAnswer | tg_bot.py:306-307 | exactly the picked question gets the answer and answer time; every other question is unchanged |
| Workflows.AnswerStep | tg_bot.py:303-313 | answering sets the answer on the picked question only and notifies the asker; a back label changes nothing |
| Workflows.MyAnswers | tg_bot.py:317-326 | the view is the sender's answered questions: in log order, each with its full multiplicity, and no other question; nothing changes |
| Workflows.QuestionAnswerRoundTrip | tg_bot.py:258-326 | a question sent to a speaker is the last entry of that speaker's list; answering it through that entry puts it, answered, into the asker's answers |
| Workflows.PickNewest | tg_bot.py:280-301 | the button for a speaker's newest question selects that question's position in the log |
| Workflows.BroadcastStep | tg_bot.py:86-89 | the broadcast reaches every known user except the sender and changes nothing |
| Admin.OpenPanel | tg_bot.py:356-360 | the panel opens exactly for the operator; everybody else is refused |
| Admin.PanelAction | tg_bot.py:364-408 | non-operators are refused; the four categories show their listing; `broadcast` opens the broadcast continuation; anything else is ignored; nothing changes |
| Admin.PanelBack | tg_bot.py:410-413 | `admin_back` shows the panel to whoever presses it |
| Admin.UserCardStep | tg_bot.py:424-430 | the card shows the user's stored role, or `user` without an entry |
| Admin.DemoteStep | tg_bot.py:432-435 | the user's role becomes `user` (an entry is created if missing); every other role and the rest of the document are unchanged |
| Admin.DeleteUserStep | tg_bot.py:446-449 | `remove_user` on the key; the reply reports the raise when `int()` fails on a non-empty question log |
| Admin.SpeakerCardStep | tg_bot.py:457-462 | the card shows the registered name exactly when there is one |
| Admin.DeleteSpeakerStep | tg_bot.py:464-468 | the speaker and role entries of the key are gone and others kept; questions and events stay |
| Admin.EventCardStep | tg_bot.py:479-491 | a bad number and an out-of-range position are refused; otherwise the card shows the event at that position |
| Admin.DeleteEventStep | tg_bot.py:493-511 | a bad number or out-of-range position changes nothing; otherwise exactly that event is popped and its title is announced to every user |
| Admin.QuestionCardStep | tg_bot.py:514-526 | a bad number and an out-of-range position are refused; otherwise the card shows the question at that position |
| Admin.DeleteQuestionStep | tg_bot.py:529-537 | a bad number raises; an out-of-range position changes nothing; otherwise exactly that question is popped |
| Admin.DeleteShiftsPositions | tg_bot.py:493-511 | after a delete every later event moves down one position, so a position's button shows the next event, and exactly the deleted event leaves the list |
| Admin.DeleteLastLeavesStaleButton | tg_bot.py:479-511 | after deleting the last event its position is out of range and a second delete of it changes nothing |
| Admin.SpeakerDeleteVersusUserDelete | tg_bot.py:464-468 | a deleted speaker falls back to `user` and keeps all their questions, while a deleted user keeps none |
| Admin.DemoteIdempotent | tg_bot.py:432-435 | demoting shows `user` on the card and demoting again changes nothing |
| Router.Arg | tg_bot.py:433 | the argument a handler splits off is exactly what follows its prefix, and prefix plus argument is the token |
| Router.Route | tg_bot.py:248-529 | whatever the token, the command it routes to is the one whose button carries exactly that token |
| Router.BuildSplitsBack | tg_bot.py:244-531 | a button's `callback_data`, split by its handler with the handler's `maxsplit`, has that many fields plus one and the last is exactly the argument the button was built from; the argument-free tokens are the back buttons |
| Router.BuildRoute | tg_bot.py:244-529 | every command whose argument does not itself spell a longer prefix or `back` routes back to itself from its token |
| Router.NumberArgsWellFormed | tg_bot.py:375-524 | numeric ids and positions never collide with a longer prefix or a `back` token |
| Router.DrawnButtonsRoute | tg_bot.py:244-524 | every button drawn with an id or a position reaches the handler it was drawn for, with that argument |
| Router.RedrawnQuestionButtonsDead | tg_bot.py:545-553 | the `question_<i>` and `none` tokens are accepted by no handler |
| Bot.ShowEvents | tg_bot.py:225-234 | the view lists every event in creation order and changes nothing |
| Bot.ChooseSpeaker | tg_bot.py:237-246 | one choice per registered speaker and nothing changes |
| Bot.SpeakerQuestions | tg_bot.py:277-287 | the list is the questions addressed to the sender: in log order, each with its full multiplicity, and no other question; nothing changes |
| Bot.MenuMessage | tg_bot.py:136-360 | with no continuation pending, `/start` is handled first and a back label next; past those, each of the seven reply-keyboard labels (lines 155, 193, 225, 237, 277, 317, 356) reaches its own handler, and any other text changes nothing and gets no reply; such a message can only open the password challenge or event creation, and nobody is notified |
| Bot.OnMessage | tg_bot.py:155-314 | the message handlers see a message only when no continuation is pending; a pending continuation (password, title, description, question, answer, broadcast) consumes the text whatever it says; messages never open the question, answer or broadcast continuations; any fan-out reaches known users only |
| Bot.ManageAction | tg_bot.py:417-529 | non-operators are refused and change nothing; for the operator each of the nine token kinds reaches its own branch (user card, make USER, delete user, speaker card, delete speaker, event card, delete event, question card, delete question); the continuation is kept and only known users are notified |
| Bot.OnCommand | tg_bot.py:248-413 | each routed button reaches its handler: `ask_back` and `speaker_questions_back` show the main menu and change nothing, `ask_` opens the question prompt, `answer_` the answer prompt, `admin_` the panel menu, `admin_back` the panel, and every other token `admin_actions`; the pending continuation is kept unless the handler opens a question, answer or broadcast continuation, and only known users are notified |
| Bot.OnCallback | tg_bot.py:248-417 | a token no handler accepts is ignored and leaves the continuation as it was; no press notifies anyone outside the role table |
| Bot.CommandName | tg_bot.py:137 | the command library's extraction: a name exactly for a text starting with `/`; the name follows the slash, holds no whitespace and no `@`, and ends with the text, at whitespace or at `@` |
| Bot.CommandShape | tg_bot.py:137 | a command is recognised exactly when the text starts with it and it is followed by nothing, whitespace or `@...` |
| Bot.StartCommandShape | tg_bot.py:137 | `/start` is recognised exactly when the text starts with `/start` followed by nothing, whitespace or `@` |
| Bot.BackIsNotCommand | tg_bot.py:137-148 | no back label is a command, so the `/start` handler never shadows "back" |
| Bot.MenuLabelsReachHandlers | tg_bot.py:155-356 | sent with no continuation pending, each reply-keyboard label reaches its own handler: none is shadowed by `/start`, by "back" or by an earlier label |
| Bot.BackReturnsToMenu | tg_bot.py:145-314 | a back label, with or without a continuation pending, returns to the menu with nothing changed, except while a broadcast is pending |
| Bot.BackDuringBroadcastIsSent | tg_bot.py:86-89 | while a broadcast is pending a back label is broadcast to every other user |
| Bot.StartBecomesTitle | tg_bot.py:193-205 | `/start` sent while a title is awaited becomes the title |
| Bot.PanelLockedForOthers | tg_bot.py:364-420 | for anyone but the operator the panel's buttons change nothing and are refused, except `admin_back`, which shows the panel |
| Bot.DeleteEventByButton | tg_bot.py:489-505 | the operator's delete button for position `i` pops exactly event `i` and announces its title |
| Bot.DemoteByButton | tg_bot.py:432-436 | the operator's "Make USER" button gives exactly that user the `user` role; other roles, speakers and questions stay |
| Bot.DeleteUserByButton | tg_bot.py:446-449 | the operator's "Delete user" button on user `uid` runs `remove_user` on that key: role and speaker entries gone, every question from or to `uid` gone, the rest kept in order, events kept, and the handler completes |
| Bot.DeleteSpeakerByButton | tg_bot.py:464-469 | the operator's "Delete speaker" button drops that speaker's record and role entry, so the user is `user` again; every other entry, the events and the questions stay |
| Bot.DeleteQuestionByButton | tg_bot.py:530-537 | the operator's delete button for question `i` pops exactly log entry `i` and changes nothing else |
| Bot.ListedQuestionPicked | tg_bot.py:284-301 | the `i`-th button of a speaker's list selects the `i`-th listed question for answering: the log entry with exactly `i` of the speaker's questions before it |
| Bot.ListTokens | tg_bot.py:391 | the `i`-th button of a listing carries the prefix followed by a number that `int()` reads back as `i`, so no two buttons share a token |
| Bot.QuestionListTokens | tg_bot.py:399 | the `i`-th button of the question listing carries the card command of question `i` |
| Bot.RedrawnQuestionTokens | tg_bot.py:545-551 | as written, one `question_<i>` button per question, and none of them reaches a handler |
| Bot.RedrawnButtonsIgnored | tg_bot.py:545-551 | as written, every button of the list redrawn after a question delete is ignored |
| Bot.QuestionButtonsOpenCards | tg_bot.py:399 | with `q_<i>` tokens every button opens the card of the question at its position |
| Bot.EventButtonsOpenCards | tg_bot.py:391 | every button of the event listing opens the card of the event at its position |

## Left out

- Telegram transport is not modelled: message texts, Markdown, reply and inline keyboards, chat ids, `answer_callback_query` and `edit_message_text`, including the fallback that sends a new panel when an edit fails. Replies keep only which answer is given and the data it is built from.
- The admin panel's four listings (tg_bot.py:372-400) are the reply `Listing`, which names the category only and not the entries listed. The user-facing views and the cards carry the data they display. Formatting, and the `safe_username` lookups (a network call), are not modelled.
- Persistence is not modelled: `load_db`, `save_db` and the `.env` configuration. `ADMIN_ID` and `SPEAKER_PASSWORD` are the parameter `Config`, and a failed load corresponds to `Store.EmptyDB`.
- Gate.RequestSpeaker: the clock is an integer `now`, so the reported wait is the exact difference. The source uses a float clock and truncates with `int()`.
- Delivery failures of notifications are swallowed by the source. The model reports the set of users a fan-out or direct notification tries to reach.
- `get_current_speaker` is left out: no handler calls it.
- Non-text messages (`message.text` is `None`) are left out: every message carries a string.
- Text.ParseInt: accepts ASCII digits only. Python's `int()` also accepts other Unicode decimal digits.
- The bot library keeps a list of next-step handlers per chat and runs all of them on the next message. The model keeps one continuation per sender, the one registered last. A second registration before the next message (pressing two speakers' buttons, say) therefore runs only the newer handler in the model.
- Concurrency is not modelled. `telebot.TeleBot(TOKEN)` (tg_bot.py:16) keeps the library default `threaded=True`, so handlers run on a worker pool and two updates can interleave on `db`. The model handles updates one at a time, each to completion. For example, a text that arrives before a worker has registered its next-step handler goes to the message handlers in the source, but always to the continuation in the model.
- Next-step handlers are keyed by chat in the library and by sender in the model; in a private chat the two coincide.
- Workflows.AnswerStep: the picked question is addressed by its position in the log. The source keeps a reference to the question object. If questions before it are deleted while the answer is pending, the source still answers the same question, but the model answers whatever now sits at that position, or nothing if the position is past the end.
- `create_event_step3` (tg_bot.py:207-222) does not call `register_speaker`, so the model does not register the creator as a speaker.
- Survival after an exception is assumed, not modelled. No handler catches the `ValueError` of a failed `int()` (tg_bot.py:51, 263, 295, 531). The model's `Aborted` step keeps the document as the handler left it and handles the next update normally. In the source that depends on `bot.polling(none_stop=True)` (tg_bot.py:568) and on the library's worker threads logging the error and carrying on. If the process stopped instead, the changes made before the exception would be lost, because they were never saved: for example, the role and speaker entries popped at tg_bot.py:49-50 before `save_db`.
- Exceptions other than a failed `int()` (a missing dictionary key in a hand-edited document) are not modelled: the document is well-formed by construction.

## Findings

| source | as written | input that shows it | evidently intended | confidence | as-written member | corrected member |
|---|---|---|---|---|---|---|
| tg_bot.py:545-551 | after a question is deleted, the redrawn list gives its buttons the token `question_<i>` | any question log with at least one entry left after an operator presses a `q_delete_<i>` button: pressing any redrawn button reaches no handler | `q_<i>`, the token the question listing itself uses (line 399), which opens the question's card | high, not executed | Bot.RedrawnButtonsIgnored | Bot.QuestionButtonsOpenCards |

=== FILE: admin.dfy ===
/** The admin panel: opening it, its menu callbacks (`admin_menu`,
    `admin_back`) and the management actions on users, speakers, events
    and questions (`admin_actions`).  Events and questions are addressed by
    their current position in the document. */
module Admin {
  import opened Base
  import opened Seqs
  import opened Text
  import opened Store
  import opened Dialog

  predicate IsOperator(cfg: Config, who: Sender) {
    who.id == cfg.adminId
  }

  /** `admin_panel_open`: only the operator gets the panel. */
  function OpenPanel(db: DB, cfg: Config, who: Sender): (r: Step)
    ensures r.db == db && r.session == NoSession && r.fanout == {} && r.direct == None
    ensures r.reply == AdminPanel <==> IsOperator(cfg, who)
    ensures r.reply == NotAllowed <==> !IsOperator(cfg, who)
  {
    Quiet(db, NoSession, if IsOperator(cfg, who) then AdminPanel else NotAllowed)
  }

  /** The listings the panel's category buttons open. */
  const Categories: set<string> := {"users", "speakers", "events", "questions"}

  /** `admin_menu` with the text after `admin_`: a category shows its
      listing, `broadcast` asks for the text to send, anything else is
      silently ignored.  Nothing in the document changes. */
  function PanelAction(db: DB, cfg: Config, who: Sender, session: Session, action: string): (r: Step)
    ensures r.db == db && r.fanout == {} && r.direct == None
    ensures !IsOperator(cfg, who) ==> r.session == session && r.reply == NotAllowed
    ensures IsOperator(cfg, who) && action in Categories ==> r.session == session && r.reply == Listing(action)
    ensures IsOperator(cfg, who) && action == "broadcast" ==> r.session == AwaitingBroadcast && r.reply == PromptBroadcast
    ensures IsOperator(cfg, who) && action !in Categories && action != "broadcast" ==>
      r.session == session && r.reply == NoReply
  {
    if !IsOperator(cfg, who) then Quiet(db, session, NotAllowed)
    else if action in Categories then Quiet(db, session, Listing(action))
    else if action == "broadcast" then Quiet(db, AwaitingBroadcast, PromptBroadcast)
    else Quiet(db, session, NoReply)
  }

  /** `admin_back`: redraws the panel for whoever presses it; unlike every
      other admin callback it checks no identity. */
  function PanelBack(db: DB, session: Session): (r: Step)
    ensures r.db == db && r.session == session && r.reply == AdminPanel
    ensures r.fanout == {} && r.direct == None
  {
    Quiet(db, session, AdminPanel)
  }

  // ---------------------------------------------------------------------
  // Users
  // ---------------------------------------------------------------------

  /** The card of user `u`, with the role `get_role` reports. */
  function UserCardStep(db: DB, session: Session, u: string): (r: Step)
    ensures r.db == db && r.session == session && r.fanout == {} && r.direct == None
    ensures r.reply.UserCard? && r.reply.user == u
    ensures u in db.roles ==> r.reply.role == db.roles[u]
    ensures u !in db.roles ==> r.reply.role == User
  {
    Quiet(db, session, UserCard(u, GetRole(db.roles, u)))
  }

  /** "Make USER": `u` gets the `user` role (an entry is created if there
      was none); the speaker record, if any, is kept. */
  function DemoteStep(db: DB, session: Session, u: string): (r: Step)
    ensures GetRole(r.db.roles, u) == User
    ensures forall j :: j != u ==> GetRole(r.db.roles, j) == GetRole(db.roles, j)
    ensures r.db.roles.Keys == db.roles.Keys + {u}
    ensures r.db.speakers == db.speakers && r.db.events == db.events
    ensures r.db.questions == db.questions && r.db.attempts == db.attempts
    ensures r.session == session && r.reply == RoleChanged && r.fanout == {} && r.direct == None
  {
    Quiet(SetRole(db, u, User), session, RoleChanged)
  }

  /** "Delete user": `remove_user`.  When `int(u)` fails on a non-empty
      question log the handler raises after roles and speakers were
      already updated. */
  function DeleteUserStep(db: DB, session: Session, u: string): (r: Step)
    ensures r.db == RemoveUser(db, u)
    ensures u !in r.db.roles && u !in r.db.speakers
    ensures r.reply == (if RemoveUserRaises(db, u) then Aborted else UserRemoved)
    ensures r.session == session && r.fanout == {} && r.direct == None
  {
    Quiet(RemoveUser(db, u), session, if RemoveUserRaises(db, u) then Aborted else UserRemoved)
  }

  // ---------------------------------------------------------------------
  // Speakers
  // ---------------------------------------------------------------------

  /** The card of speaker `u`, with the registered name if there is one. */
  function SpeakerCardStep(db: DB, session: Session, u: string): (r: Step)
    ensures r.db == db && r.session == session && r.fanout == {} && r.direct == None
    ensures r.reply.SpeakerCard? && r.reply.user == u
    ensures r.reply.name.Some? <==> u in db.speakers
    ensures u in db.speakers ==> r.reply.name.value == db.speakers[u]
  {
    Quiet(db, session, SpeakerCard(u, Lookup(db.speakers, u)))
  }

  /** "Delete speaker": drops the speaker record and the role entry of `u`
      (so `u` falls back to `user`); questions and events stay. */
  function DeleteSpeakerStep(db: DB, session: Session, u: string): (r: Step)
    ensures u !in r.db.speakers && u !in r.db.roles
    ensures forall j :: j != u ==> Lookup(r.db.speakers, j) == Lookup(db.speakers, j)
    ensures forall j :: j != u ==> Lookup(r.db.roles, j) == Lookup(db.roles, j)
    ensures r.db.events == db.events && r.db.questions == db.questions && r.db.attempts == db.attempts
    ensures r.session == session && r.reply == SpeakerRemoved && r.fanout == {} && r.direct == None
  {
    Quiet(db.(speakers := db.speakers - {u}, roles := db.roles - {u}), session, SpeakerRemoved)
  }

  // ---------------------------------------------------------------------
  // Events and questions, addressed by position
  // ---------------------------------------------------------------------

  /** The card of the event at position `int(arg)`. */
  function EventCardStep(db: DB, session: Session, arg: string): (r: Step)
    ensures r.db == db && r.session == session && r.fanout == {} && r.direct == None
    ensures ParseInt(arg).None? ==> r.reply == InvalidIndex
    ensures ParseInt(arg).Some? && !(0 <= ParseInt(arg).value < |db.events|) ==> r.reply == IndexOutOfRange
    ensures ParseInt(arg).Some? && 0 <= ParseInt(arg).value < |db.events| ==>
      r.reply == EventCard(ParseInt(arg).value, db.events[ParseInt(arg).value])
  {
    match ParseInt(arg)
    case None => Quiet(db, session, InvalidIndex)
    case Some(i) =>
      if 0 <= i < |db.events| then Quiet(db, session, EventCard(i, db.events[i]))
      else Quiet(db, session, IndexOutOfRange)
  }

  /** "Delete event": removes the event at position `int(arg)`, keeps the
      others in order, and announces the removed title to every user (the
      fan-out passes no exclusion, so only a user literally keyed `None`
      would be skipped). */
  function DeleteEventStep(db: DB, session: Session, arg: string): (r: Step)
    ensures r.session == session && r.direct == None
    ensures r.db.roles == db.roles && r.db.speakers == db.speakers
    ensures r.db.questions == db.questions && r.db.attempts == db.attempts
    ensures ParseInt(arg).None? ==> r.db == db && r.reply == InvalidIndex && r.fanout == {}
    ensures ParseInt(arg).Some? && !(0 <= ParseInt(arg).value < |db.events|) ==>
      r.db == db && r.reply == IndexOutOfRange && r.fanout == {}
    ensures ParseInt(arg).Some? && 0 <= ParseInt(arg).value < |db.events| ==>
      var i := ParseInt(arg).value;
      && r.db.events == RemoveAt(db.events, i)
      && r.reply == EventRemoved(db.events[i].title)
      && r.fanout == Recipients(db.roles, NoExclude)
  {
    match ParseInt(arg)
    case None => Quiet(db, session, InvalidIndex)
    case Some(i) =>
      if 0 <= i < |db.events| then
        Step(db.(events := RemoveAt(db.events, i)), session, EventRemoved(db.events[i].title),
             Recipients(db.roles, NoExclude), None)
      else Quiet(db, session, IndexOutOfRange)
  }

  /** The card of the question at position `int(arg)` of the whole log. */
  function QuestionCardStep(db: DB, session: Session, arg: string): (r: Step)
    ensures r.db == db && r.session == session && r.fanout == {} && r.direct == None
    ensures ParseInt(arg).None? ==> r.reply == InvalidIndex
    ensures ParseInt(arg).Some? && !(0 <= ParseInt(arg).value < |db.questions|) ==> r.reply == IndexOutOfRange
    ensures ParseInt(arg).Some? && 0 <= ParseInt(arg).value < |db.questions| ==>
      r.reply == QuestionCard(ParseInt(arg).value, db.questions[ParseInt(arg).value])
  {
    match ParseInt(arg)
    case None => Quiet(db, session, InvalidIndex)
    case Some(i) =>
      if 0 <= i < |db.questions| then Quiet(db, session, QuestionCard(i, db.questions[i]))
      else Quiet(db, session, IndexOutOfRange)
  }

  /** "Delete question": removes the question at position `int(arg)`.  This
      branch has no guard around `int()`, so a bad number raises. */
  function DeleteQuestionStep(db: DB, session: Session, arg: string): (r: Step)
    ensures r.session == session && r.fanout == {} && r.direct == None
    ensures r.db.roles == db.roles && r.db.speakers == db.speakers
    ensures r.db.events == db.events && r.db.attempts == db.attempts
    ensures ParseInt(arg).None? ==> r.db == db && r.reply == Aborted
    ensures ParseInt(arg).Some? && !(0 <= ParseInt(arg).value < |db.questions|) ==>
      r.db == db && r.reply == IndexOutOfRange
    ensures ParseInt(arg).Some? && 0 <= ParseInt(arg).value < |db.questions| ==>
      r.db.questions == RemoveAt(db.questions, ParseInt(arg).value) && r.reply == QuestionRemoved
  {
    match ParseInt(arg)
    case None => Quiet(db, session, Aborted)
    case Some(i) =>
      if 0 <= i < |db.questions| then
        Quiet(db.(questions := RemoveAt(db.questions, i)), session, QuestionRemoved)
      else Quiet(db, session, IndexOutOfRange)
  }

  // ---------------------------------------------------------------------
  // Properties
  // ---------------------------------------------------------------------

  /** Deleting an event shifts every later event down by one position: the
      card button drawn for position `i + 1` before the delete now shows the
      event that sat at `i + 2`, and position `i` shows the former `i + 1`. */
  lemma DeleteShiftsPositions(db: DB, session: Session, i: nat)
    requires i + 1 < |db.events|
    ensures var d := DeleteEventStep(db, session, IntToStr(i)).db;
      && |d.events| == |db.events| - 1
      && EventCardStep(d, session, IntToStr(i)).reply == EventCard(i, db.events[i + 1])
      && multiset(d.events) + multiset{db.events[i]} == multiset(db.events)
  {
    ParseIntToStr(i);
    DeleteThenOpen(db, session, IntToStr(i), i);
  }

  lemma DeleteThenOpen(db: DB, session: Session, arg: string, i: nat)
    requires i + 1 < |db.events| && ParseInt(arg) == Some(i)
    ensures var d := DeleteEventStep(db, session, arg).db;
      && d.events == RemoveAt(db.events, i)
      && EventCardStep(d, session, arg).reply == EventCard(i, db.events[i + 1])
  {
  }

  /** Deleting the last event leaves a button for its old position that now
      points past the end. */
  lemma DeleteLastLeavesStaleButton(db: DB, session: Session)
    requires |db.events| > 0
    ensures var n := |db.events| - 1;
      var d := DeleteEventStep(db, session, IntToStr(n)).db;
      && d.events == db.events[..n]
      && EventCardStep(d, session, IntToStr(n)).reply == IndexOutOfRange
      && DeleteEventStep(d, session, IntToStr(n)).db == d
  {
    var n := |db.events| - 1;
    var arg := IntToStr(n);
    ParseIntToStr(n);
    DeleteLastTruncates(db, session, arg, n);
    PastTheEnd(DeleteEventStep(db, session, arg).db, session, arg, n);
  }

  lemma DeleteLastTruncates(db: DB, session: Session, arg: string, n: nat)
    requires n + 1 == |db.events| && ParseInt(arg) == Some(n)
    ensures DeleteEventStep(db, session, arg).db.events == db.events[..n]
  {
    var d := DeleteEventStep(db, session, arg).db;
    assert d.events == RemoveAt(db.events, n);
    assert d.events == db.events[..n];
  }

  /** A position one past the last event opens no card and deletes nothing. */
  lemma PastTheEnd(d: DB, session: Session, arg: string, n: nat)
    requires n == |d.events| && ParseInt(arg) == Some(n)
    ensures EventCardStep(d, session, arg).reply == IndexOutOfRange
    ensures DeleteEventStep(d, session, arg).db == d
  {
  }

  /** A speaker deleted from the panel loses the record and falls back to
      `user`, but unlike a deleted user keeps every question sent to or by
      them. */
  lemma SpeakerDeleteVersusUserDelete(db: DB, session: Session, uid: int)
    ensures var s := DeleteSpeakerStep(db, session, Key(uid)).db;
      var u := DeleteUserStep(db, session, Key(uid)).db;
      && GetRole(s.roles, Key(uid)) == User && GetRole(u.roles, Key(uid)) == User
      && SpeakerCardStep(s, session, Key(uid)).reply == SpeakerCard(Key(uid), None)
      && s.questions == db.questions
      && (forall q :: q in u.questions ==> q.from != uid && q.to != uid)
  {
    SpeakerDeleteKeeps(db, session, Key(uid));
    UserDeleteDrops(db, session, uid);
  }

  lemma SpeakerDeleteKeeps(db: DB, session: Session, k: string)
    ensures var s := DeleteSpeakerStep(db, session, k).db;
      && GetRole(s.roles, k) == User
      && SpeakerCardStep(s, session, k).reply == SpeakerCard(k, None)
      && s.questions == db.questions
  {
  }

  lemma UserDeleteDrops(db: DB, session: Session, uid: int)
    ensures var u := DeleteUserStep(db, session, Key(uid)).db;
      && GetRole(u.roles, Key(uid)) == User
      && (forall q :: q in u.questions ==> q.from != uid && q.to != uid)
  {
    CascadeDelete(db, uid);
  }

  /** Demoting is idempotent and visible on the user's card. */
  lemma DemoteIdempotent(db: DB, session: Session, u: string)
    ensures var d := DemoteStep(db, session, u).db;
      && UserCardStep(d, session, u).reply == UserCard(u, User)
      && DemoteStep(d, session, u).db == d
  {
    var d := DemoteStep(db, session, u).db;
    assert d.roles[u := User] == d.roles;
  }
}

=== FILE: base.dfy ===
/** Optional values: the model's stand-in for Python's `None` and for
    dictionary lookups that may miss. */
module Base {

  datatype Option<+T> = None | Some(value: T) {

    /** The wrapped value, or `default` when there is none (Python's `d.get(k, default)`). */
    function GetOr(default: T): T {
      match this
      case Some(v) => v
      case None => default
    }
  }

  /** `m.get(k)` of a Python dictionary. */
  function Lookup<K, V>(m: map<K, V>, k: K): (r: Option<V>)
    ensures r.Some? <==> k in m
    ensures r.Some? ==> r.value == m[k]
  {
    if k in m then Some(m[k]) else None
  }
}

=== FILE: bot.dfy ===
/** Dispatch of one update.  A text message goes to the sender's pending
    continuation if there is one, and otherwise to the first message
    handler, in registration order, whose filter accepts it.  A button
    press goes to the handler its callback token routes to. */
module Bot {
  import opened Base
  import opened Seqs
  import opened Text
  import opened Store
  import opened Dialog
  import opened Gate
  import opened Workflows
  import opened Admin
  import opened Router

  // ---------------------------------------------------------------------
  // Message filters
  // ---------------------------------------------------------------------

  /** The longest prefix of `s` without a character that `stop` accepts. */
  function Until(s: string, stop: char -> bool): (r: string)
    ensures |r| <= |s| && r == s[..|r|]
    ensures forall i :: 0 <= i < |r| ==> !stop(r[i])
    ensures |r| == |s| || stop(s[|r|])
  {
    if s == [] || stop(s[0]) then []
    else
      var r := [s[0]] + Until(s[1..], stop);
      assert s[..|r|] == [s[0]] + s[1..][..|r| - 1];
      r
  }

  predicate IsAt(c: char) {
    c == '@'
  }

  /** The command a text names, as the bot library extracts it: the text
      must start with `/`; its first whitespace-separated word, cut at the
      first `@`, without the slash. */
  function CommandName(text: string): (r: Option<string>)
    ensures r.Some? <==> |text| > 0 && text[0] == '/'
    // the name follows the slash and holds no whitespace and no `@` ...
    ensures r.Some? ==> StartsWith(text, "/" + r.value)
    ensures r.Some? ==> forall i :: 0 <= i < |r.value| ==> !IsSpace(r.value[i]) && !IsAt(r.value[i])
    // ... and ends where the text, its first word or the bot-name suffix does
    ensures r.Some? ==>
      |text| == |r.value| + 1 || IsSpace(text[|r.value| + 1]) || IsAt(text[|r.value| + 1])
  {
    if |text| > 0 && text[0] == '/' then
      var w1 := Until(text, IsSpace);
      var word := Until(w1, IsAt);
      assert |word| > 0 && word[0] == '/';
      assert word == "/" + word[1..];
      assert text[..|word|] == word;
      assert |word| == |text| || IsSpace(text[|word|]) || IsAt(text[|word|]) by {
        if |word| < |w1| {
          assert w1[|word|] == text[|word|];
        }
      }
      Some(word[1..])
    else None
  }

  const StartCommand := "/start"

  predicate IsStartCommand(text: string) {
    CommandName(text) == Some("start")
  }

  /** Reply-keyboard labels, matched exactly (no stripping). */
  const BecomeSpeakerLabel := "\U{1F3A4} Стать спикером"
  const CreateEventLabel := "\U{2795} Создать мероприятие"
  const EventsLabel := "\U{1F4C5} Посмотреть мероприятия"
  const AskLabel := "\U{2753} Задать вопрос спикеру"
  const MyQuestionsLabel := "\U{1F4E8} Мои вопросы"
  const MyAnswersLabel := "\U{1F4E8} Мои ответы"
  const AdminPanelLabel := "\U{1F527} Админ-панель"

  const MenuLabels: set<string> := {BecomeSpeakerLabel, CreateEventLabel, EventsLabel, AskLabel,
                                    MyQuestionsLabel, MyAnswersLabel, AdminPanelLabel}

  // ---------------------------------------------------------------------
  // Views
  // ---------------------------------------------------------------------

  /** `show_events`: every event, in creation order (an empty list is
      shown as "no events"). */
  function ShowEvents(db: DB): (r: Step)
    ensures r.db == db && r.session == NoSession && r.fanout == {} && r.direct == None
    ensures r.reply.EventsView? && r.reply.events == db.events
  {
    Quiet(db, NoSession, EventsView(db.events))
  }

  /** `choose_speaker`: one button per registered speaker. */
  function ChooseSpeaker(db: DB): (r: Step)
    ensures r.db == db && r.session == NoSession && r.fanout == {} && r.direct == None
    ensures r.reply.SpeakerChoice? && r.reply.speakers == db.speakers
  {
    Quiet(db, NoSession, SpeakerChoice(db.speakers))
  }

  /** `speaker_questions`: the questions addressed to the sender, in log
      order and with their multiplicities; the `i`-th gets the button
      `answer_<i>`. */
  function SpeakerQuestions(db: DB, who: Sender): (r: Step)
    ensures r.db == db && r.session == NoSession && r.fanout == {} && r.direct == None
    ensures r.reply.QuestionsView?
    ensures r.reply.questions == QuestionsTo(db.questions, who.id)
    ensures forall q :: q in r.reply.questions <==> q in db.questions && q.to == who.id
    ensures IsSubsequence(r.reply.questions, db.questions)
    ensures forall q :: multiset(r.reply.questions)[q] == if q.to == who.id then multiset(db.questions)[q] else 0
  {
    Quiet(db, NoSession, QuestionsView(QuestionsTo(db.questions, who.id)))
  }

  // ---------------------------------------------------------------------
  // Dispatch
  // ---------------------------------------------------------------------

  /** A text message with no continuation pending: the message handlers in
      registration order. */
  function MenuMessage(db: DB, cfg: Config, who: Sender, text: string, now: int): (r: Step)
    ensures r.session == NoSession || r.session == AwaitingSecret || r.session == AwaitingTitle
    ensures r.fanout == {} && r.direct == None
    ensures IsStartCommand(text) ==> r == Start(db, cfg, who)
    ensures !IsStartCommand(text) && IsBack(text) ==> r == BackToMenu(db, who)
    // past those two, each menu label reaches its own handler ...
    ensures !IsStartCommand(text) && !IsBack(text) && text == BecomeSpeakerLabel ==>
      r == RequestSpeaker(db, who, now)
    ensures !IsStartCommand(text) && !IsBack(text) && text == CreateEventLabel ==> r == CreateEventBegin(db, who)
    ensures !IsStartCommand(text) && !IsBack(text) && text == EventsLabel ==> r == ShowEvents(db)
    ensures !IsStartCommand(text) && !IsBack(text) && text == AskLabel ==> r == ChooseSpeaker(db)
    ensures !IsStartCommand(text) && !IsBack(text) && text == MyQuestionsLabel ==> r == SpeakerQuestions(db, who)
    ensures !IsStartCommand(text) && !IsBack(text) && text == MyAnswersLabel ==> r == MyAnswers(db, who)
    ensures !IsStartCommand(text) && !IsBack(text) && text == AdminPanelLabel ==> r == OpenPanel(db, cfg, who)
    // ... and any other text is ignored
    ensures !IsStartCommand(text) && !IsBack(text) && text !in MenuLabels ==>
      r.db == db && r.session == NoSession && r.reply == NoReply
  {
    if IsStartCommand(text) then Start(db, cfg, who)
    else if IsBack(text) then BackToMenu(db, who)
    else if text == BecomeSpeakerLabel then RequestSpeaker(db, who, now)
    else if text == CreateEventLabel then CreateEventBegin(db, who)
    else if text == EventsLabel then ShowEvents(db)
    else if text == AskLabel then ChooseSpeaker(db)
    else if text == MyQuestionsLabel then SpeakerQuestions(db, who)
    else if text == MyAnswersLabel then MyAnswers(db, who)
    else if text == AdminPanelLabel then OpenPanel(db, cfg, who)
    else Quiet(db, NoSession, NoReply)
  }

  /** A text message.  A pending continuation consumes it whatever it says;
      only without one do the message handlers see it.  Messages never
      start the continuations that buttons start, and every fan-out goes to
      known users only. */
  function OnMessage(db: DB, cfg: Config, who: Sender, session: Session, text: string, now: int): (r: Step)
    ensures r.session.NoSession? || r.session.AwaitingSecret? || r.session.AwaitingTitle?
            || r.session.AwaitingDescription?
    ensures r.fanout <= db.roles.Keys
    // the message handlers see the text only when no continuation is pending
    ensures session == NoSession ==> r == MenuMessage(db, cfg, who, text, now)
    // otherwise the pending continuation consumes it, whatever it says
    ensures session == AwaitingSecret ==> r == CheckSecret(db, cfg, who, text, now)
    ensures session == AwaitingTitle ==> r == TitleStep(db, who, text)
    ensures session.AwaitingDescription? ==> r == DescriptionStep(db, who, session.title, text, now)
    ensures session.AwaitingQuestion? ==> r == QuestionStep(db, who, session.speaker, text, now)
    ensures session.AwaitingAnswer? ==> r == AnswerStep(db, who, session.position, text, now)
    ensures session == AwaitingBroadcast ==> r == BroadcastStep(db, who, text)
  {
    match session
    case NoSession => MenuMessage(db, cfg, who, text, now)
    case AwaitingSecret => CheckSecret(db, cfg, who, text, now)
    case AwaitingTitle => TitleStep(db, who, text)
    case AwaitingDescription(title) => DescriptionStep(db, who, title, text, now)
    case AwaitingQuestion(speaker) => QuestionStep(db, who, speaker, text, now)
    case AwaitingAnswer(pos) => AnswerStep(db, who, pos, text, now)
    case AwaitingBroadcast => BroadcastStep(db, who, text)
  }

  /** `admin_actions`: the operator check first, then the branch the token
      selects. */
  function ManageAction(db: DB, cfg: Config, who: Sender, session: Session, c: Command): (r: Step)
    requires c.UserInfo? || c.UserToUser? || c.UserDelete? || c.SpeakerInfo? || c.SpeakerDelete?
             || c.EventInfo? || c.EventDelete? || c.QuestionInfo? || c.QuestionDelete?
    ensures r.session == session && r.direct == None
    ensures !IsOperator(cfg, who) ==> r == Quiet(db, session, NotAllowed)
    ensures r.fanout <= db.roles.Keys
    // for the operator, each token reaches its own branch
    ensures IsOperator(cfg, who) && c.UserInfo? ==> r == UserCardStep(db, session, c.user)
    ensures IsOperator(cfg, who) && c.UserToUser? ==> r == DemoteStep(db, session, c.user)
    ensures IsOperator(cfg, who) && c.UserDelete? ==> r == DeleteUserStep(db, session, c.user)
    ensures IsOperator(cfg, who) && c.SpeakerInfo? ==> r == SpeakerCardStep(db, session, c.user)
    ensures IsOperator(cfg, who) && c.SpeakerDelete? ==> r == DeleteSpeakerStep(db, session, c.user)
    ensures IsOperator(cfg, who) && c.EventInfo? ==> r == EventCardStep(db, session, c.index)
    ensures IsOperator(cfg, who) && c.EventDelete? ==> r == DeleteEventStep(db, session, c.index)
    ensures IsOperator(cfg, who) && c.QuestionInfo? ==> r == QuestionCardStep(db, session, c.index)
    ensures IsOperator(cfg, who) && c.QuestionDelete? ==> r == DeleteQuestionStep(db, session, c.index)
  {
    if !IsOperator(cfg, who) then Quiet(db, session, NotAllowed)
    else
      match c
      case UserInfo(u) => UserCardStep(db, session, u)
      case UserToUser(u) => DemoteStep(db, session, u)
      case UserDelete(u) => DeleteUserStep(db, session, u)
      case SpeakerInfo(u) => SpeakerCardStep(db, session, u)
      case SpeakerDelete(u) => DeleteSpeakerStep(db, session, u)
      case EventInfo(i) => EventCardStep(db, session, i)
      case EventDelete(i) => DeleteEventStep(db, session, i)
      case QuestionInfo(i) => QuestionCardStep(db, session, i)
      case QuestionDelete(i) => DeleteQuestionStep(db, session, i)
  }

  /** The handler a routed button press reaches. */
  function OnCommand(db: DB, cfg: Config, who: Sender, session: Session, c: Command): (r: Step)
    ensures r.direct == None && r.fanout <= db.roles.Keys
    ensures r.session == session || r.session.AwaitingQuestion? || r.session.AwaitingAnswer?
            || r.session == AwaitingBroadcast
    // the two audience back buttons show the main menu and change nothing
    ensures c.AskBack? || c.SpeakerQuestionsBack? ==>
      r.db == db && r.session == session && r.fanout == {}
      && r.reply == MainMenu(GetRole(db.roles, Key(who.id)))
    ensures c.AskSpeaker? ==> r == AskBegin(db, c.speaker)
    ensures c.AnswerPick? ==> r == AnswerBegin(db, who, session, c.index)
    ensures c.AdminMenu? ==> r == PanelAction(db, cfg, who, session, c.action)
    ensures c.AdminBack? ==> r == PanelBack(db, session)
    // every other token goes to `admin_actions`
    ensures (!c.AskBack? && !c.AskSpeaker? && !c.SpeakerQuestionsBack? && !c.AnswerPick?
             && !c.AdminMenu? && !c.AdminBack?) ==> r == ManageAction(db, cfg, who, session, c)
  {
    match c
    case AskBack => Quiet(db, session, MainMenu(GetRole(db.roles, Key(who.id))))
    case AskSpeaker(s) => AskBegin(db, s)
    case SpeakerQuestionsBack => Quiet(db, session, MainMenu(GetRole(db.roles, Key(who.id))))
    case AnswerPick(i) => AnswerBegin(db, who, session, i)
    case AdminMenu(a) => PanelAction(db, cfg, who, session, a)
    case AdminBack => PanelBack(db, session)
    case _ => ManageAction(db, cfg, who, session, c)
  }

  /** A button press.  Unless the handler starts a continuation, the
      pending one, if any, stays as it was; a token no handler accepts is
      ignored. */
  function OnCallback(db: DB, cfg: Config, who: Sender, session: Session, data: string): (r: Step)
    ensures r.direct == None && r.fanout <= db.roles.Keys
    ensures r.session == session || r.session.AwaitingQuestion? || r.session.AwaitingAnswer?
            || r.session == AwaitingBroadcast
    ensures Route(data).None? ==> r == Quiet(db, session, NoReply)
  {
    match Route(data)
    case None => Quiet(db, session, NoReply)
    case Some(c) => OnCommand(db, cfg, who, session, c)
  }

  // ---------------------------------------------------------------------
  // Properties
  // ---------------------------------------------------------------------

  /** `Until` runs at least as far as a prefix free of stop characters. */
  lemma UntilCoversPrefix(s: string, stop: char -> bool, p: string)
    requires StartsWith(s, p)
    requires forall i :: 0 <= i < |p| ==> !stop(p[i])
    ensures |Until(s, stop)| >= |p| && Until(s, stop)[..|p|] == p
    ensures |s| == |p| || stop(s[|p|]) ==> |Until(s, stop)| == |p|
  {
    var r := Until(s, stop);
    assert forall i :: 0 <= i < |r| && i < |p| ==> r[i] == p[i];
    assert r[..|p|] == s[..|p|];
  }

  /** A command word `w` (a slash and a name free of whitespace and `@`)
      is recognised exactly when the text begins with `w` followed by
      nothing, whitespace or a bot-name suffix `@...`. */
  lemma CommandShape(text: string, w: string)
    requires |w| >= 1 && w[0] == '/'
    requires forall i :: 0 <= i < |w| ==> !IsSpace(w[i]) && !IsAt(w[i])
    ensures CommandName(text) == Some(w[1..]) <==>
      StartsWith(text, w) && (|text| == |w| || IsSpace(text[|w|]) || IsAt(text[|w|]))
  {
    var w1 := Until(text, IsSpace);
    var word := Until(w1, IsAt);
    if CommandName(text) == Some(w[1..]) {
      assert |word| == |w|;
      assert word == [word[0]] + word[1..];
      assert word[0] == text[0];
      assert word == w;
      assert text[..|w|] == w;
      if |w1| > |w| {
        assert w1[|w|] == text[|w|];
      }
    }
    if StartsWith(text, w) && (|text| == |w| || IsSpace(text[|w|]) || IsAt(text[|w|])) {
      UntilCoversPrefix(text, IsSpace, w);
      assert StartsWith(w1, w);
      UntilCoversPrefix(w1, IsAt, w);
      assert |w1| == |w| || IsAt(w1[|w|]);
      assert word == w;
      assert w == [w[0]] + w[1..];
    }
  }

  /** `/start` is recognised exactly when the text begins with `/start`
      followed by nothing, whitespace or a bot-name suffix `@...`. */
  lemma StartCommandShape(text: string)
    ensures IsStartCommand(text) <==>
      StartsWith(text, StartCommand)
      && (|text| == |StartCommand| || IsSpace(text[|StartCommand|]) || text[|StartCommand|] == '@')
  {
    assert StartCommand == ['/', 's', 't', 'a', 'r', 't'];
    assert !IsSpace('/') && !IsSpace('s') && !IsSpace('t') && !IsSpace('a') && !IsSpace('r');
    assert StartCommand[1..] == "start";
    CommandShape(text, StartCommand);
  }

  /** `strip()` keeps a first character that is not whitespace. */
  lemma StripKeepsHead(text: string)
    requires |text| > 0 && !IsSpace(text[0])
    ensures Strip(IsSpace, text) != [] && Strip(IsSpace, text)[0] == text[0]
  {
    var t := TrimStart(IsSpace, text);
    assert t == text;
    TrimEndBlanks(IsSpace, t);
  }

  lemma BackKeysHeads()
    ensures forall k :: k in BackKeys ==> |k| > 0 && k[0] != '/'
  {
    assert "\U{1F519} Назад"[0] != '/' && "\U{2B05} Назад"[0] != '/' && "Назад"[0] != '/';
  }

  /** A "back" text is never the `/start` command, nor any other command. */
  lemma BackIsNotCommand(text: string)
    ensures !(IsBack(text) && CommandName(text).Some?)
  {
    if |text| > 0 && text[0] == '/' {
      assert !IsSpace('/');
      StripKeepsHead(text);
      BackKeysHeads();
    }
  }

  /** "Back" leads to the main menu with nothing changed and the
      continuation dropped, whatever is pending, with one exception: a
      pending broadcast sends the label to everyone instead. */
  lemma BackReturnsToMenu(db: DB, cfg: Config, who: Sender, session: Session, text: string, now: int)
    requires IsBack(text) && session != AwaitingBroadcast
    ensures OnMessage(db, cfg, who, session, text, now) == BackToMenu(db, who)
  {
    BackIsNotCommand(text);
  }

  lemma BackDuringBroadcastIsSent(db: DB, cfg: Config, who: Sender, text: string, now: int)
    requires IsBack(text)
    ensures var r := OnMessage(db, cfg, who, AwaitingBroadcast, text, now);
      && r.reply == BroadcastSent && r.session == NoSession
      && (forall u :: u in r.fanout <==> u in db.roles && u != Key(who.id))
  {
  }

  lemma StartIsNotBack()
    ensures !IsBack(StartCommand)
  {
    assert !IsSpace('/');
    StripKeepsHead(StartCommand);
    BackKeysHeads();
  }

  /** A text that starts with neither a slash nor whitespace, ends in no
      whitespace and is not a back label is neither `/start` nor "back". */
  lemma LabelIsPlain(text: string)
    requires |text| > 0 && text[0] != '/' && !IsSpace(text[0]) && !IsSpace(text[|text| - 1])
    requires text !in BackKeys
    ensures !IsStartCommand(text) && !IsBack(text)
  {
    StripUnpadded(IsSpace, text);
  }

  /** Each reply-keyboard label, sent with no continuation pending, reaches
      its own handler: none of them is taken by `/start`, by "back" or by
      an earlier label. */
  lemma MenuLabelsReachHandlers(db: DB, cfg: Config, who: Sender, now: int)
    ensures OnMessage(db, cfg, who, NoSession, BecomeSpeakerLabel, now) == RequestSpeaker(db, who, now)
    ensures OnMessage(db, cfg, who, NoSession, CreateEventLabel, now) == CreateEventBegin(db, who)
    ensures OnMessage(db, cfg, who, NoSession, EventsLabel, now) == ShowEvents(db)
    ensures OnMessage(db, cfg, who, NoSession, AskLabel, now) == ChooseSpeaker(db)
    ensures OnMessage(db, cfg, who, NoSession, MyQuestionsLabel, now) == SpeakerQuestions(db, who)
    ensures OnMessage(db, cfg, who, NoSession, MyAnswersLabel, now) == MyAnswers(db, who)
    ensures OnMessage(db, cfg, who, NoSession, AdminPanelLabel, now) == OpenPanel(db, cfg, who)
  {
    LabelIsPlain(BecomeSpeakerLabel);
    LabelIsPlain(CreateEventLabel);
    LabelIsPlain(EventsLabel);
    LabelIsPlain(AskLabel);
    LabelIsPlain(MyQuestionsLabel);
    LabelIsPlain(MyAnswersLabel);
    LabelIsPlain(AdminPanelLabel);
  }

  /** A continuation waiting for a title takes `/start` as the title. */
  lemma StartBecomesTitle(db: DB, cfg: Config, who: Sender, now: int)
    ensures OnMessage(db, cfg, who, AwaitingTitle, StartCommand, now)
            == Quiet(db, AwaitingDescription(StartCommand), PromptDescription)
  {
    StartIsNotBack();
  }

  /** Only the operator can use the panel's menu and management buttons;
      for anybody else they change nothing.  `admin_back` alone answers
      everyone. */
  lemma PanelLockedForOthers(db: DB, cfg: Config, who: Sender, session: Session, data: string)
    requires !IsOperator(cfg, who)
    requires Route(data).Some? && !Route(data).value.AskBack? && !Route(data).value.AskSpeaker?
             && !Route(data).value.SpeakerQuestionsBack? && !Route(data).value.AnswerPick?
    ensures var r := OnCallback(db, cfg, who, session, data);
      && r.db == db && r.session == session && r.fanout == {}
      && (r.reply == NotAllowed <==> data != AdminBackToken)
      && (r.reply == AdminPanel <==> data == AdminBackToken)
  {
    var c := Route(data).value;
    assert Build(c) == data;
  }

  lemma CallbackRouted(db: DB, cfg: Config, who: Sender, session: Session, data: string, c: Command)
    requires Route(data) == Some(c)
    ensures OnCallback(db, cfg, who, session, data) == OnCommand(db, cfg, who, session, c)
  {
  }

  /** Pressing an event's delete button, as the operator, removes exactly
      that event and announces it to every user. */
  lemma DeleteEventByButton(db: DB, cfg: Config, who: Sender, session: Session, i: nat)
    requires IsOperator(cfg, who) && i < |db.events|
    ensures var r := OnCallback(db, cfg, who, session, Build(EventDelete(IntToStr(i))));
      && r.db.events == RemoveAt(db.events, i)
      && r.reply == EventRemoved(db.events[i].title)
      && r.fanout == Recipients(db.roles, NoExclude)
  {
    var c := EventDelete(IntToStr(i));
    BuildRoute(c);
    CallbackRouted(db, cfg, who, session, Build(c), c);
    ParseIntToStr(i);
    assert OnCommand(db, cfg, who, session, c) == DeleteEventStep(db, session, IntToStr(i));
  }

  /** Pressing "Make USER" on a user's card, as the operator, gives that
      user the `user` role and leaves every other role and the speaker
      records as they were. */
  lemma DemoteByButton(db: DB, cfg: Config, who: Sender, session: Session, u: string)
    requires IsOperator(cfg, who)
    ensures var r := OnCallback(db, cfg, who, session, Build(UserToUser(u)));
      && GetRole(r.db.roles, u) == User
      && (forall j :: j != u ==> GetRole(r.db.roles, j) == GetRole(db.roles, j))
      && r.db.speakers == db.speakers && r.db.questions == db.questions
      && r.reply == RoleChanged && r.fanout == {}
  {
    var c := UserToUser(u);
    BuildRoute(c);
    CallbackRouted(db, cfg, who, session, Build(c), c);
  }

  /** Pressing "Delete user" on the card of the user `uid`, as the
      operator, is `remove_user` on that user's key: the role and speaker
      entries go, so does every question sent by or to `uid`, the other
      questions stay in order, and the handler completes. */
  lemma DeleteUserByButton(db: DB, cfg: Config, who: Sender, session: Session, uid: int)
    requires IsOperator(cfg, who)
    ensures var r := OnCallback(db, cfg, who, session, Build(UserDelete(Key(uid))));
      && r.db == RemoveUser(db, Key(uid))
      && Key(uid) !in r.db.roles && Key(uid) !in r.db.speakers
      && (forall q :: q in r.db.questions ==> q.from != uid && q.to != uid)
      && IsSubsequence(r.db.questions, db.questions)
      && r.db.events == db.events
      && r.reply == UserRemoved && r.fanout == {}
  {
    var c := UserDelete(Key(uid));
    BuildRoute(c);
    CallbackRouted(db, cfg, who, session, Build(c), c);
    CascadeDelete(db, uid);
  }

  /** Pressing "Delete speaker" on a speaker's card, as the operator,
      drops that speaker's record and role (so the user falls back to
      `user`) and keeps everything else. */
  lemma DeleteSpeakerByButton(db: DB, cfg: Config, who: Sender, session: Session, u: string)
    requires IsOperator(cfg, who)
    ensures var r := OnCallback(db, cfg, who, session, Build(SpeakerDelete(u)));
      && u !in r.db.speakers && GetRole(r.db.roles, u) == User
      && (forall j :: j != u ==> Lookup(r.db.speakers, j) == Lookup(db.speakers, j))
      && (forall j :: j != u ==> Lookup(r.db.roles, j) == Lookup(db.roles, j))
      && r.db.events == db.events && r.db.questions == db.questions
      && r.reply == SpeakerRemoved && r.fanout == {}
  {
    var c := SpeakerDelete(u);
    BuildRoute(c);
    CallbackRouted(db, cfg, who, session, Build(c), c);
  }

  /** Pressing a question's delete button, as the operator, removes
      exactly that log entry. */
  lemma DeleteQuestionByButton(db: DB, cfg: Config, who: Sender, session: Session, i: nat)
    requires IsOperator(cfg, who) && i < |db.questions|
    ensures var r := OnCallback(db, cfg, who, session, Build(QuestionDelete(IntToStr(i))));
      && r.db.questions == RemoveAt(db.questions, i)
      && r.db.events == db.events && r.db.roles == db.roles && r.db.speakers == db.speakers
      && r.db.attempts == db.attempts && r.session == session
      && r.reply == QuestionRemoved && r.fanout == {}
  {
    var c := QuestionDelete(IntToStr(i));
    BuildRoute(c);
    CallbackRouted(db, cfg, who, session, Build(c), c);
    ParseIntToStr(i);
    assert OnCommand(db, cfg, who, session, c) == DeleteQuestionStep(db, session, IntToStr(i));
  }

  /** The `i`-th button of a speaker's question list picks the `i`-th
      listed question for answering: the entry with exactly `i` of the
      speaker's questions before it in the log. */
  lemma ListedQuestionPicked(db: DB, cfg: Config, who: Sender, session: Session, i: nat)
    requires i < |QuestionsTo(db.questions, who.id)|
    ensures var r := OnCallback(db, cfg, who, session, Build(AnswerPick(IntToStr(i))));
      && r.session.AwaitingAnswer?
      && r.reply == PromptAnswer(QuestionsTo(db.questions, who.id)[i].text)
      && r.session.position < |db.questions|
      && db.questions[r.session.position] == QuestionsTo(db.questions, who.id)[i]
      && |QuestionsTo(db.questions[..r.session.position], who.id)| == i
  {
    var c := AnswerPick(IntToStr(i));
    BuildRoute(c);
    CallbackRouted(db, cfg, who, session, Build(c), c);
    ParseIntToStr(i);
    assert OnCommand(db, cfg, who, session, c) == AnswerBegin(db, who, session, IntToStr(i));
  }

  // ---------------------------------------------------------------------
  // Buttons of the question listings
  // ---------------------------------------------------------------------

  /** The tokens of a listing of `n` entries whose `i`-th button carries
      `prefix` followed by `str(i)`. */
  function ListTokens(prefix: string, n: nat): (r: seq<string>)
    ensures |r| == n
    // after the prefix, `int()` reads each button's position back
    ensures forall i :: 0 <= i < n ==> StartsWith(r[i], prefix) && ParseInt(r[i][|prefix|..]) == Some(i)
    // so no two buttons of a listing carry the same token
    ensures forall i, j :: 0 <= i < j < n ==> r[i] != r[j]
  {
    NumberedTokens(prefix, n);
    seq(n, i => prefix + IntToStr(i))
  }

  lemma NumberedTokens(prefix: string, n: nat)
    ensures forall i :: 0 <= i < n ==>
      && StartsWith(prefix + IntToStr(i), prefix)
      && (prefix + IntToStr(i))[|prefix|..] == IntToStr(i)
      && ParseInt(IntToStr(i)) == Some(i)
  {
    forall i | 0 <= i < n
      ensures StartsWith(prefix + IntToStr(i), prefix)
      ensures (prefix + IntToStr(i))[|prefix|..] == IntToStr(i)
      ensures ParseInt(IntToStr(i)) == Some(i)
    {
      StartsWithConcat(prefix, IntToStr(i));
      ParseIntToStr(i);
    }
  }

  /** The buttons drawn after a question is deleted, as written: the
      `i`-th carries `question_<i>`, which no handler takes. */
  function RedrawnQuestionTokens(db: DB): (r: seq<string>)
    ensures |r| == |db.questions|
    ensures forall i :: 0 <= i < |r| ==> Route(r[i]) == None
  {
    RedrawnAllDead(|db.questions|);
    ListTokens("question_", |db.questions|)
  }

  lemma RedrawnAllDead(n: nat)
    ensures forall i :: 0 <= i < n ==> Route(ListTokens("question_", n)[i]) == None
  {
    forall i | 0 <= i < n
      ensures Route(ListTokens("question_", n)[i]) == None
    {
      RedrawnQuestionButtonsDead(i);
    }
  }

  /** The buttons of the question listing (`admin_questions`): the `i`-th
      carries `q_<i>`, the card command of the `i`-th question.  This is
      the token the redraw evidently meant. */
  function QuestionListTokens(db: DB): (r: seq<string>)
    ensures |r| == |db.questions|
    ensures forall i :: 0 <= i < |r| ==> r[i] == Build(QuestionInfo(IntToStr(i)))
  {
    CardTokens(|db.questions|);
    ListTokens(QuestionPrefix, |db.questions|)
  }

  lemma CardTokens(n: nat)
    ensures forall i :: 0 <= i < n ==> ListTokens(QuestionPrefix, n)[i] == Build(QuestionInfo(IntToStr(i)))
  {
    forall i | 0 <= i < n
      ensures ListTokens(QuestionPrefix, n)[i] == Build(QuestionInfo(IntToStr(i)))
    {
      var c := QuestionInfo(IntToStr(i));
      assert Build(c) == QuestionPrefix + IntToStr(i);
      assert ListTokens(QuestionPrefix, n)[i] == Build(c);
    }
  }

  /** As written, every button of the redrawn question list is dead: the
      press reaches no handler and changes nothing. */
  lemma RedrawnButtonsIgnored(db: DB, cfg: Config, who: Sender, session: Session, i: nat)
    requires i < |db.questions|
    ensures OnCallback(db, cfg, who, session, RedrawnQuestionTokens(db)[i]) == Quiet(db, session, NoReply)
  {
    RedrawnQuestionButtonsDead(i);
  }

  /** With `q_<i>` tokens each button opens the card of exactly the
      question listed at that position. */
  lemma QuestionButtonsOpenCards(db: DB, cfg: Config, who: Sender, session: Session, i: nat)
    requires IsOperator(cfg, who) && i < |db.questions|
    ensures OnCallback(db, cfg, who, session, QuestionListTokens(db)[i])
            == Quiet(db, session, QuestionCard(i, db.questions[i]))
  {
    var c := QuestionInfo(IntToStr(i));
    NumberArgsWellFormed(i);
    BuildRoute(c);
    assert QuestionListTokens(db)[i] == Build(c);
    CallbackRouted(db, cfg, who, session, Build(c), c);
    ParseIntToStr(i);
    assert OnCommand(db, cfg, who, session, c) == QuestionCardStep(db, session, IntToStr(i));
  }

  /** Each button of the event listing (`admin_events`) opens the card of
      exactly the event listed at that position. */
  lemma EventButtonsOpenCards(db: DB, cfg: Config, who: Sender, session: Session, i: nat)
    requires IsOperator(cfg, who) && i < |db.events|
    ensures OnCallback(db, cfg, who, session, ListTokens(EventPrefix, |db.events|)[i])
            == Quiet(db, session, EventCard(i, db.events[i]))
  {
    var c := EventInfo(IntToStr(i));
    NumberArgsWellFormed(i);
    BuildRoute(c);
    assert ListTokens(EventPrefix, |db.events|)[i] == Build(c);
    CallbackRouted(db, cfg, who, session, Build(c), c);
    ParseIntToStr(i);
    assert OnCommand(db, cfg, who, session, c) == EventCardStep(db, session, IntToStr(i));
  }
}

=== FILE: dialog.dfy ===
/** The vocabulary shared by the handlers: the per-user pending
    continuation, the fixed configuration, the sender of an update, what
    the bot answers, and the outcome of handling one update. */
module Dialog {
  import opened Base
  import opened Store

  /** The handler registered with `register_next_step_handler`, with the
      context it captured.  `AwaitingAnswer` holds the position, in the full
      question log, of the question picked for answering. */
  datatype Session =
    | NoSession
    | AwaitingSecret
    | AwaitingTitle
    | AwaitingDescription(title: string)
    | AwaitingQuestion(speaker: string)
    | AwaitingAnswer(position: nat)
    | AwaitingBroadcast

  /** `ADMIN_ID` and `SPEAKER_PASSWORD`, read once at start-up. */
  datatype Config = Config(adminId: int, password: string)

  /** The user an update comes from. */
  datatype Sender = Sender(id: int, firstName: string)

  /** What the sender is shown (message text and keyboards are not modelled,
      only which answer is given and the data it is built from). */
  datatype Reply =
    | NoReply                               // no handler, or a handler that returns silently
    | MainMenu(role: Role)                  // send_main_menu
    | NotAllowed                            // authorisation refused
    | Aborted                               // uncaught exception: the rest of the handler did not run
    | WaitSeconds(seconds: int)             // password challenge refused while blocked
    | PromptSecret
    | BecameSpeaker
    | WrongSecret(remaining: int)
    | TriesExhausted
    | PromptTitle
    | PromptDescription
    | EventCreated
    | PromptQuestion
    | QuestionSent
    | PromptAnswer(questionText: string)
    | AnswerSent
    | PromptBroadcast
    | BroadcastSent
    | InvalidIndex                          // int() failed on a callback argument
    | IndexOutOfRange
    | EventsView(events: seq<Event>)
    | SpeakerChoice(speakers: map<string, string>)
    | QuestionsView(questions: seq<Question>)
    | AnswersView(questions: seq<Question>)
    | AdminPanel
    | Listing(category: string)
    | UserCard(user: string, role: Role)
    | SpeakerCard(user: string, name: Option<string>)
    | EventCard(index: int, event: Event)
    | QuestionCard(index: int, question: Question)
    | RoleChanged
    | UserRemoved
    | SpeakerRemoved
    | EventRemoved(title: string)
    | QuestionRemoved

  /** The result of handling one update: the new document, the sender's new
      pending continuation, the reply, the users a `notify_all` fan-out
      tries to reach, and the one user notified directly (a speaker about a
      new question, an asker about an answer). */
  datatype Step = Step(
    db: DB,
    session: Session,
    reply: Reply,
    fanout: set<string>,
    direct: Option<int>)

  /** A step that notifies nobody. */
  function Quiet(db: DB, session: Session, reply: Reply): Step {
    Step(db, session, reply, {}, None)
  }

  /** `send_main_menu` after a "back": nothing changes, the continuation is
      dropped and the sender sees the menu of their current role. */
  function BackToMenu(db: DB, who: Sender): Step {
    Quiet(db, NoSession, MainMenu(GetRole(db.roles, Key(who.id))))
  }
}

=== FILE: gate.dfy ===
/** The "become speaker" password challenge (`req_speaker` and
    `check_speaker_password`): a rate-limited state machine
    Idle -> Challenged -> Granted | Blocked, where Challenged is the
    `AwaitingSecret` continuation and the clock is the parameter `now`. */
module Gate {
  import opened Base
  import opened Store
  import opened Dialog

  const MaxTries := 3
  const BlockSeconds := 300

  /** `password_attempts.setdefault(k, {"tries": 0})`. */
  function EnsureAttempts(db: DB, k: string): (r: DB)
    ensures k in r.attempts
    ensures k in db.attempts ==> r == db
    ensures k !in db.attempts ==> r.attempts == db.attempts[k := Attempts(0, None)]
    ensures r.(attempts := db.attempts) == db
  {
    if k in db.attempts then db else db.(attempts := db.attempts[k := Attempts(0, None)])
  }

  /** Failed tries recorded for `k` (none recorded counts as zero). */
  function TriesOf(db: DB, k: string): int {
    if k in db.attempts then db.attempts[k].tries else 0
  }

  /** `attempts.get("blocked_until", 0)`. */
  function BlockedUntil(a: Attempts): int {
    a.blockedUntil.GetOr(0)
  }

  /** `k` may not enter the challenge at time `now` (a user without a
      record counts as blocked until time 0). */
  predicate IsBlocked(db: DB, k: string, now: int) {
    (if k in db.attempts then BlockedUntil(db.attempts[k]) else 0) > now
  }

  /** `req_speaker`: while blocked the sender is told how many seconds are
      left and no challenge starts; otherwise the challenge starts.  Either
      way the only change to the document is a zero-try record for a user
      who had none, so no try is ever consumed here. */
  function RequestSpeaker(db: DB, who: Sender, now: int): (r: Step)
    ensures r.db == EnsureAttempts(db, Key(who.id))
    ensures TriesOf(r.db, Key(who.id)) == TriesOf(db, Key(who.id))
    ensures IsBlocked(db, Key(who.id), now) ==>
      && r.session == NoSession
      && r.reply.WaitSeconds?
      && r.reply.seconds == BlockedUntil(r.db.attempts[Key(who.id)]) - now > 0
    ensures !IsBlocked(db, Key(who.id), now) ==> r.session == AwaitingSecret && r.reply == PromptSecret
    ensures r.fanout == {} && r.direct == None
  {
    var k := Key(who.id);
    var d := EnsureAttempts(db, k);
    var until := BlockedUntil(d.attempts[k]);
    if until > now then Quiet(d, NoSession, WaitSeconds(until - now))
    else Quiet(d, AwaitingSecret, PromptSecret)
  }

  /** The right password: role `speaker`, display name registered, the
      counter reset to exactly `{tries: 0}`. */
  function Grant(db: DB, k: string, name: string): (r: DB)
    ensures GetRole(r.roles, k) == Speaker
    ensures forall j :: j != k ==> GetRole(r.roles, j) == GetRole(db.roles, j)
    ensures k in r.speakers && r.speakers[k] == name
    ensures r.attempts == db.attempts[k := Attempts(0, None)]
    ensures r.events == db.events && r.questions == db.questions
  {
    var d := RegisterSpeaker(SetRole(db, k, Speaker), k, name);
    d.(attempts := d.attempts[k := Attempts(0, None)])
  }

  /** A wrong password: one more try, and a block from `now` at the limit. */
  function Reject(db: DB, k: string, now: int): (r: DB)
    requires k in db.attempts
    ensures r.roles == db.roles && r.speakers == db.speakers
    ensures r.events == db.events && r.questions == db.questions
    ensures k in r.attempts && r.attempts[k].tries == db.attempts[k].tries + 1
    ensures forall j :: j != k ==> Lookup(r.attempts, j) == Lookup(db.attempts, j)
    ensures r.attempts[k].tries >= MaxTries ==> r.attempts[k].blockedUntil == Some(now + BlockSeconds)
    ensures r.attempts[k].tries < MaxTries ==> r.attempts[k].blockedUntil == db.attempts[k].blockedUntil
  {
    var a := db.attempts[k];
    var tries := a.tries + 1;
    var until := if tries >= MaxTries then Some(now + BlockSeconds) else a.blockedUntil;
    db.(attempts := db.attempts[k := Attempts(tries, until)])
  }

  /** The right password: role `speaker`, display name registered, the
      counter reset to exactly `{tries: 0}`, challenge over. */
  function Admit(db: DB, who: Sender): (r: Step)
    ensures var k := Key(who.id);
      && GetRole(r.db.roles, k) == Speaker
      && (forall j :: j != k ==> GetRole(r.db.roles, j) == GetRole(db.roles, j))
      && k in r.db.speakers && r.db.speakers[k] == who.firstName
      && r.db.attempts == db.attempts[k := Attempts(0, None)]
      && r.db.events == db.events && r.db.questions == db.questions
    ensures r.session == NoSession && r.reply == BecameSpeaker
    ensures r.fanout == {} && r.direct == None
  {
    var k := Key(who.id);
    var d := EnsureAttempts(db, k);
    assert d.attempts[k := Attempts(0, None)] == db.attempts[k := Attempts(0, None)];
    Quiet(Grant(d, k, who.firstName), NoSession, BecameSpeaker)
  }

  /** A wrong password: one more try recorded; at the limit the user is
      blocked from `now` and the challenge ends, otherwise it goes on. */
  function Penalize(db: DB, who: Sender, now: int): (r: Step)
    ensures var k := Key(who.id);
      var tries := TriesOf(db, k) + 1;
      && r.db.roles == db.roles && r.db.speakers == db.speakers
      && r.db.events == db.events && r.db.questions == db.questions
      && k in r.db.attempts && r.db.attempts[k].tries == tries
      && (forall j :: j != k ==> Lookup(r.db.attempts, j) == Lookup(db.attempts, j))
      && (tries >= MaxTries ==>
            && r.db.attempts[k].blockedUntil == Some(now + BlockSeconds)
            && r.session == NoSession && r.reply == TriesExhausted)
      && (tries < MaxTries ==>
            && r.db.attempts[k].blockedUntil == EnsureAttempts(db, k).attempts[k].blockedUntil
            && r.session == AwaitingSecret && r.reply == WrongSecret(MaxTries - tries))
    ensures r.fanout == {} && r.direct == None
  {
    var k := Key(who.id);
    var d := EnsureAttempts(db, k);
    assert TriesOf(d, k) == TriesOf(db, k);
    var rejected := Reject(d, k, now);
    var tries := rejected.attempts[k].tries;
    if tries >= MaxTries then Quiet(rejected, NoSession, TriesExhausted)
    else Quiet(rejected, AwaitingSecret, WrongSecret(MaxTries - tries))
  }

  /** `check_speaker_password`, the continuation of the challenge. */
  function CheckSecret(db: DB, cfg: Config, who: Sender, text: string, now: int): (r: Step)
    // "back" aborts without penalty
    ensures IsBack(text) ==> r == BackToMenu(db, who)
    // the right password grants the speaker role and clears the counter
    ensures !IsBack(text) && text == cfg.password ==>
      var k := Key(who.id);
      && GetRole(r.db.roles, k) == Speaker
      && (forall j :: j != k ==> GetRole(r.db.roles, j) == GetRole(db.roles, j))
      && k in r.db.speakers && r.db.speakers[k] == who.firstName
      && r.db.attempts == db.attempts[k := Attempts(0, None)]
      && r.db.events == db.events && r.db.questions == db.questions
      && r.session == NoSession && r.reply == BecameSpeaker
    // a wrong one consumes a try; the third blocks and ends the challenge
    ensures !IsBack(text) && text != cfg.password ==>
      var k := Key(who.id);
      var tries := TriesOf(db, k) + 1;
      && r.db.roles == db.roles && r.db.speakers == db.speakers
      && r.db.events == db.events && r.db.questions == db.questions
      && k in r.db.attempts && r.db.attempts[k].tries == tries
      && (forall j :: j != k ==> Lookup(r.db.attempts, j) == Lookup(db.attempts, j))
      && (tries >= MaxTries ==>
            && r.db.attempts[k].blockedUntil == Some(now + BlockSeconds)
            && r.session == NoSession && r.reply == TriesExhausted)
      && (tries < MaxTries ==>
            && r.db.attempts[k].blockedUntil == EnsureAttempts(db, k).attempts[k].blockedUntil
            && r.session == AwaitingSecret && r.reply == WrongSecret(MaxTries - tries))
    ensures r.session == NoSession || r.session == AwaitingSecret
    ensures r.fanout == {} && r.direct == None
  {
    if IsBack(text) then BackToMenu(db, who)
    else if text == cfg.password then Admit(db, who)
    else Penalize(db, who, now)
  }

  /** A wrong, non-"back" answer to the challenge. */
  predicate Wrong(cfg: Config, text: string) {
    !IsBack(text) && text != cfg.password
  }

  lemma WrongBelowLimit(db: DB, cfg: Config, who: Sender, text: string, now: int)
    requires Wrong(cfg, text) && TriesOf(db, Key(who.id)) + 1 < MaxTries
    ensures var r := CheckSecret(db, cfg, who, text, now);
      && TriesOf(r.db, Key(who.id)) == TriesOf(db, Key(who.id)) + 1
      && r.session == AwaitingSecret && r.reply == WrongSecret(MaxTries - TriesOf(r.db, Key(who.id)))
  {
  }

  lemma WrongAtLimit(db: DB, cfg: Config, who: Sender, text: string, now: int)
    requires Wrong(cfg, text) && TriesOf(db, Key(who.id)) + 1 == MaxTries
    ensures var r := CheckSecret(db, cfg, who, text, now);
      && Key(who.id) in r.db.attempts
      && r.db.attempts[Key(who.id)] == Attempts(MaxTries, Some(now + BlockSeconds))
      && r.session == NoSession && r.reply == TriesExhausted
  {
  }

  /** From a clean record, three wrong answers in a row report two, then
      one remaining try, then block the user for `BlockSeconds` from the
      third answer; during that window the challenge cannot be re-entered. */
  lemma ThreeWrongAnswersBlock(db: DB, cfg: Config, who: Sender,
                               t1: string, t2: string, t3: string,
                               n1: int, n2: int, n3: int, later: int)
    requires TriesOf(db, Key(who.id)) == 0
    requires Wrong(cfg, t1) && Wrong(cfg, t2) && Wrong(cfg, t3)
    requires n3 <= later < n3 + BlockSeconds
    ensures var s1 := CheckSecret(db, cfg, who, t1, n1);
      var s2 := CheckSecret(s1.db, cfg, who, t2, n2);
      var s3 := CheckSecret(s2.db, cfg, who, t3, n3);
      && s1.session == AwaitingSecret && s1.reply == WrongSecret(2)
      && s2.session == AwaitingSecret && s2.reply == WrongSecret(1)
      && s3.session == NoSession && s3.reply == TriesExhausted
      && s3.db.attempts[Key(who.id)] == Attempts(3, Some(n3 + BlockSeconds))
      && RequestSpeaker(s3.db, who, later).session == NoSession
      && RequestSpeaker(s3.db, who, later).reply == WaitSeconds(n3 + BlockSeconds - later)
  {
    var k := Key(who.id);
    var s1 := CheckSecret(db, cfg, who, t1, n1);
    WrongBelowLimit(db, cfg, who, t1, n1);
    var s2 := CheckSecret(s1.db, cfg, who, t2, n2);
    WrongBelowLimit(s1.db, cfg, who, t2, n2);
    var s3 := CheckSecret(s2.db, cfg, who, t3, n3);
    WrongAtLimit(s2.db, cfg, who, t3, n3);
    BlockedRequest(s3.db, who, n3 + BlockSeconds, later);
  }

  /** While a block lasts, asking again only reports the seconds left. */
  lemma BlockedRequest(db: DB, who: Sender, until: int, later: int)
    requires Key(who.id) in db.attempts && db.attempts[Key(who.id)].blockedUntil == Some(until)
    requires later < until
    ensures RequestSpeaker(db, who, later).session == NoSession
    ensures RequestSpeaker(db, who, later).reply == WaitSeconds(until - later)
  {
    assert IsBlocked(db, Key(who.id), later);
  }

  /** Tries are reset only by the right password: once a block has expired
      the challenge can be entered again, but the first wrong answer blocks
      the user again at once. */
  lemma ReblockAfterExpiry(db: DB, cfg: Config, who: Sender, text: string, now: int)
    requires Key(who.id) in db.attempts && db.attempts[Key(who.id)].tries >= MaxTries
    requires !IsBlocked(db, Key(who.id), now)
    requires Wrong(cfg, text)
    ensures var s1 := RequestSpeaker(db, who, now);
      var s2 := CheckSecret(s1.db, cfg, who, text, now);
      && s1.session == AwaitingSecret
      && s2.session == NoSession && s2.reply == TriesExhausted
      && IsBlocked(s2.db, Key(who.id), now)
  {
  }
}

=== FILE: router.dfy ===
/** Callback routing: which handler a button's callback token reaches, and
    the argument that handler recovers from it.  `Route` follows the order
    in which tg_bot.py registers its callback handlers (the first matching
    one wins) and the order of the branches inside `admin_actions`. */
module Router {
  import opened Base
  import opened Text

  /** A parsed callback token.  Arguments are kept as the strings the
      handlers split off; handlers that need a number apply `int()`. */
  datatype Command =
    | AskBack
    | AskSpeaker(speaker: string)
    | SpeakerQuestionsBack
    | AnswerPick(index: string)
    | AdminMenu(action: string)
    | AdminBack
    | UserInfo(user: string)
    | UserToUser(user: string)
    | UserDelete(user: string)
    | SpeakerInfo(user: string)
    | SpeakerDelete(user: string)
    | EventInfo(index: string)
    | EventDelete(index: string)
    | QuestionInfo(index: string)
    | QuestionDelete(index: string)

  const AskPrefix := "ask_"
  const AskBackToken := "ask_back"
  const AnswerPrefix := "answer_"
  const SpeakerQuestionsBackToken := "speaker_questions_back"
  const AdminPrefix := "admin_"
  const AdminBackToken := "admin_back"
  const UserPrefix := "user_"
  const UserToUserPrefix := "user_to_user_"
  const UserDeletePrefix := "user_delete_"
  const SpeakerPrefix := "speaker_"
  const SpeakerDeletePrefix := "speaker_delete_"
  const EventPrefix := "event_"
  const EventDeletePrefix := "event_delete_"
  const QuestionPrefix := "q_"
  const QuestionDeletePrefix := "q_delete_"

  // ---------------------------------------------------------------------
  // Shapes of the prefixes
  // ---------------------------------------------------------------------

  /** A prefix `w_` (one word and the separator): `split("_", 1)` on a
      token with this prefix returns what follows it as the second field. */
  lemma OnePiece(w: string, p: string)
    requires '_' !in w && p == w + "_"
    ensures SepTerminated(p, '_', 1)
  {
    assert p == w + "_" + "";
    SepTerminatedCons(w, "", '_', 0);
  }

  /** A prefix `w1_w2_`, as `user_delete_`: the shape `split("_", 2)` needs. */
  lemma TwoPieces(w1: string, w2: string, p: string)
    requires '_' !in w1 && '_' !in w2 && p == w1 + "_" + (w2 + "_")
    ensures SepTerminated(p, '_', 2)
  {
    OnePiece(w2, w2 + "_");
    SepTerminatedCons(w1, w2 + "_", '_', 1);
  }

  /** A prefix `w1_w2_w3_`, as `user_to_user_`: the shape `split("_", 3)` needs. */
  lemma ThreePieces(w1: string, w2: string, w3: string, p: string)
    requires '_' !in w1 && '_' !in w2 && '_' !in w3
    requires p == w1 + "_" + (w2 + "_" + (w3 + "_"))
    ensures SepTerminated(p, '_', 3)
  {
    TwoPieces(w2, w3, w2 + "_" + (w3 + "_"));
    SepTerminatedCons(w1, w2 + "_" + (w3 + "_"), '_', 2);
  }

  // ---------------------------------------------------------------------
  // Routing
  // ---------------------------------------------------------------------

  /** `token.split("_", k)[k]` for a token starting with a `k`-piece
      prefix: exactly the text after the prefix. */
  function Arg(t: string, p: string, k: nat): (a: string)
    requires StartsWith(t, p) && SepTerminated(p, '_', k)
    ensures a == t[|p|..] && p + a == t
  {
    FieldAfterPrefix(t, p, '_', k);
    assert p + t[|p|..] == t[..|p|] + t[|p|..];
    SplitMax(t, '_', k)[k]
  }

  /** The prefix a command's button starts with and the `maxsplit` its
      handler passes to `split("_", …)`; `None` for the three buttons that
      carry a fixed token. */
  function Layout(c: Command): Option<(string, nat)> {
    match c
    case AskBack => None
    case SpeakerQuestionsBack => None
    case AdminBack => None
    case AskSpeaker(_) => Some((AskPrefix, 1))
    case AnswerPick(_) => Some((AnswerPrefix, 1))
    case AdminMenu(_) => Some((AdminPrefix, 1))
    case UserInfo(_) => Some((UserPrefix, 1))
    case UserToUser(_) => Some((UserToUserPrefix, 3))
    case UserDelete(_) => Some((UserDeletePrefix, 2))
    case SpeakerInfo(_) => Some((SpeakerPrefix, 1))
    case SpeakerDelete(_) => Some((SpeakerDeletePrefix, 2))
    case EventInfo(_) => Some((EventPrefix, 1))
    case EventDelete(_) => Some((EventDeletePrefix, 2))
    case QuestionInfo(_) => Some((QuestionPrefix, 1))
    case QuestionDelete(_) => Some((QuestionDeletePrefix, 2))
  }

  /** The argument a command carries; empty for the fixed tokens. */
  function Payload(c: Command): string {
    match c
    case AskBack => ""
    case SpeakerQuestionsBack => ""
    case AdminBack => ""
    case AskSpeaker(s) => s
    case AnswerPick(i) => i
    case AdminMenu(a) => a
    case UserInfo(u) => u
    case UserToUser(u) => u
    case UserDelete(u) => u
    case SpeakerInfo(u) => u
    case SpeakerDelete(u) => u
    case EventInfo(i) => i
    case EventDelete(i) => i
    case QuestionInfo(i) => i
    case QuestionDelete(i) => i
  }

  /** Every prefix in the table has as many `_`-terminated pieces as its
      handler splits off: once for `ask_`, `answer_`, `admin_` and the card
      prefixes, twice for the `*_delete_` prefixes, three times for
      `user_to_user_`. */
  lemma LayoutShape(c: Command)
    ensures Layout(c).Some? ==> SepTerminated(Layout(c).value.0, '_', Layout(c).value.1)
  {
    match c
    case AskBack =>
    case SpeakerQuestionsBack =>
    case AdminBack =>
    case AskSpeaker(_) =>
      assert AskPrefix == "ask" + "_";
      OnePiece("ask", AskPrefix);
    case AnswerPick(_) =>
      assert AnswerPrefix == "answer" + "_";
      OnePiece("answer", AnswerPrefix);
    case AdminMenu(_) =>
      assert AdminPrefix == "admin" + "_";
      OnePiece("admin", AdminPrefix);
    case UserInfo(_) =>
      assert UserPrefix == "user" + "_";
      OnePiece("user", UserPrefix);
    case UserToUser(_) =>
      assert UserToUserPrefix == "user" + "_" + ("to" + "_" + ("user" + "_"));
      ThreePieces("user", "to", "user", UserToUserPrefix);
    case UserDelete(_) =>
      assert UserDeletePrefix == "user" + "_" + ("delete" + "_");
      TwoPieces("user", "delete", UserDeletePrefix);
    case SpeakerInfo(_) =>
      assert SpeakerPrefix == "speaker" + "_";
      OnePiece("speaker", SpeakerPrefix);
    case SpeakerDelete(_) =>
      assert SpeakerDeletePrefix == "speaker" + "_" + ("delete" + "_");
      TwoPieces("speaker", "delete", SpeakerDeletePrefix);
    case EventInfo(_) =>
      assert EventPrefix == "event" + "_";
      OnePiece("event", EventPrefix);
    case EventDelete(_) =>
      assert EventDeletePrefix == "event" + "_" + ("delete" + "_");
      TwoPieces("event", "delete", EventDeletePrefix);
    case QuestionInfo(_) =>
      assert QuestionPrefix == "q" + "_";
      OnePiece("q", QuestionPrefix);
    case QuestionDelete(_) =>
      assert QuestionDeletePrefix == "q" + "_" + ("delete" + "_");
      TwoPieces("q", "delete", QuestionDeletePrefix);
  }

  /** The callback token a button carries for a command. */
  function Build(c: Command): string {
    match c
    case AskBack => AskBackToken
    case AskSpeaker(s) => AskPrefix + s
    case SpeakerQuestionsBack => SpeakerQuestionsBackToken
    case AnswerPick(i) => AnswerPrefix + i
    case AdminMenu(a) => AdminPrefix + a
    case AdminBack => AdminBackToken
    case UserInfo(u) => UserPrefix + u
    case UserToUser(u) => UserToUserPrefix + u
    case UserDelete(u) => UserDeletePrefix + u
    case SpeakerInfo(u) => SpeakerPrefix + u
    case SpeakerDelete(u) => SpeakerDeletePrefix + u
    case EventInfo(i) => EventPrefix + i
    case EventDelete(i) => EventDeletePrefix + i
    case QuestionInfo(i) => QuestionPrefix + i
    case QuestionDelete(i) => QuestionDeletePrefix + i
  }

  /** A button's token, split the way its handler splits it, gives back
      exactly the argument the button was built from; the three fixed
      tokens are the back buttons. */
  lemma BuildSplitsBack(c: Command)
    ensures Layout(c).None? ==>
      Build(c) == AskBackToken || Build(c) == SpeakerQuestionsBackToken || Build(c) == AdminBackToken
    ensures Layout(c).Some? ==>
      var p, k := Layout(c).value.0, Layout(c).value.1;
      && StartsWith(Build(c), p) && SepTerminated(p, '_', k)
      && |SplitMax(Build(c), '_', k)| == k + 1
      && SplitMax(Build(c), '_', k)[k] == Payload(c)
  {
    LayoutShape(c);
    if Layout(c).Some? {
      var p, k := Layout(c).value.0, Layout(c).value.1;
      assert Build(c) == p + Payload(c);
      StartsWithConcat(p, Payload(c));
      FieldAfterPrefix(Build(c), p, '_', k);
    }
  }

  /** The handlers registered before the admin panel's: `ask_back`,
      `ask_`, `speaker_questions_back`, `answer_`, in that order. */
  function RouteAudience(t: string): (r: Option<Command>)
    ensures r.Some? ==> Build(r.value) == t
  {
    if t == AskBackToken then Some(AskBack)
    else if StartsWith(t, AskPrefix) then
      LayoutShape(AskSpeaker(""));
      Some(AskSpeaker(Arg(t, AskPrefix, 1)))
    else if t == SpeakerQuestionsBackToken then Some(SpeakerQuestionsBack)
    else if StartsWith(t, AnswerPrefix) then
      LayoutShape(AnswerPick(""));
      Some(AnswerPick(Arg(t, AnswerPrefix, 1)))
    else None
  }

  /** `admin_` tokens other than `admin_back`, then `admin_back`. */
  function RouteAdmin(t: string): (r: Option<Command>)
    ensures r.Some? ==> Build(r.value) == t
  {
    if StartsWith(t, AdminPrefix) && t != AdminBackToken then
      LayoutShape(AdminMenu(""));
      Some(AdminMenu(Arg(t, AdminPrefix, 1)))
    else if t == AdminBackToken then Some(AdminBack)
    else None
  }

  /** The `user_` branches of `admin_actions`, in their order. */
  function RouteUser(t: string): (r: Option<Command>)
    ensures r.Some? ==> Build(r.value) == t
  {
    if StartsWith(t, UserPrefix) && !StartsWith(t, UserToUserPrefix) && !StartsWith(t, UserDeletePrefix) then
      LayoutShape(UserInfo(""));
      Some(UserInfo(Arg(t, UserPrefix, 1)))
    else if StartsWith(t, UserToUserPrefix) then
      LayoutShape(UserToUser(""));
      Some(UserToUser(Arg(t, UserToUserPrefix, 3)))
    else if StartsWith(t, UserDeletePrefix) then
      LayoutShape(UserDelete(""));
      Some(UserDelete(Arg(t, UserDeletePrefix, 2)))
    else None
  }

  /** The `speaker_` branches of `admin_actions`. */
  function RouteSpeaker(t: string): (r: Option<Command>)
    ensures r.Some? ==> Build(r.value) == t
  {
    if StartsWith(t, SpeakerPrefix) && !StartsWith(t, SpeakerDeletePrefix) then
      LayoutShape(SpeakerInfo(""));
      Some(SpeakerInfo(Arg(t, SpeakerPrefix, 1)))
    else if StartsWith(t, SpeakerDeletePrefix) then
      LayoutShape(SpeakerDelete(""));
      Some(SpeakerDelete(Arg(t, SpeakerDeletePrefix, 2)))
    else None
  }

  /** The `event_` branches of `admin_actions`. */
  function RouteEvent(t: string): (r: Option<Command>)
    ensures r.Some? ==> Build(r.value) == t
  {
    if StartsWith(t, EventPrefix) && !StartsWith(t, EventDeletePrefix) then
      LayoutShape(EventInfo(""));
      Some(EventInfo(Arg(t, EventPrefix, 1)))
    else if StartsWith(t, EventDeletePrefix) then
      LayoutShape(EventDelete(""));
      Some(EventDelete(Arg(t, EventDeletePrefix, 2)))
    else None
  }

  /** The `q_` branches of `admin_actions`. */
  function RouteQuestion(t: string): (r: Option<Command>)
    ensures r.Some? ==> Build(r.value) == t
  {
    if StartsWith(t, QuestionPrefix) && !StartsWith(t, QuestionDeletePrefix) then
      LayoutShape(QuestionInfo(""));
      Some(QuestionInfo(Arg(t, QuestionPrefix, 1)))
    else if StartsWith(t, QuestionDeletePrefix) then
      LayoutShape(QuestionDelete(""));
      Some(QuestionDelete(Arg(t, QuestionDeletePrefix, 2)))
    else None
  }

  /** The handler a callback token reaches, `None` when no registered
      predicate accepts it.  Whatever the token, the command found is the
      one whose button carries exactly that token. */
  function Route(t: string): (r: Option<Command>)
    ensures r.Some? ==> Build(r.value) == t
  {
    var a := RouteAudience(t);
    if a.Some? then a else
    var b := RouteAdmin(t);
    if b.Some? then b else
    var u := RouteUser(t);
    if u.Some? then u else
    var s := RouteSpeaker(t);
    if s.Some? then s else
    var e := RouteEvent(t);
    if e.Some? then e else
    RouteQuestion(t)
  }

  // ---------------------------------------------------------------------
  // Build and Route are inverse on well-formed commands
  // ---------------------------------------------------------------------

  /** The commands whose token no earlier handler or branch captures: the
      argument of `ask_`/`admin_` is not `back`, and an info argument does
      not itself spell a later branch's longer prefix. */
  predicate WellFormed(c: Command) {
    match c
    case AskSpeaker(s) => s != "back"
    case AdminMenu(a) => a != "back"
    case UserInfo(u) => !StartsWith(u, "to_user_") && !StartsWith(u, "delete_")
    case SpeakerInfo(u) => u != "questions_back" && !StartsWith(u, "delete_")
    case EventInfo(i) => !StartsWith(i, "delete_")
    case QuestionInfo(i) => !StartsWith(i, "delete_")
    case _ => true
  }

  /** A token that starts with `p` cannot start with, or be, a `q` that
      differs from `p` at position `i`. */
  lemma Mismatch(t: string, p: string, q: string, i: nat)
    requires StartsWith(t, p) && i < |p| && i < |q| && p[i] != q[i]
    ensures !StartsWith(t, q) && t != q
  {
    assert t[i] == t[..|p|][i];
  }

  /** Two tokens with the same prefix are equal exactly when their
      arguments are. */
  lemma Cancel(p: string, x: string, y: string)
    ensures p + x == p + y <==> x == y
  {
    StartsWithConcat(p, x);
    StartsWithConcat(p, y);
  }

  /** The three literal "back" tokens (`ask_back`, `admin_back`,
      `speaker_questions_back`) seen as a prefix plus an argument. */
  lemma LiteralBacks()
    ensures AskBackToken == AskPrefix + "back"
    ensures AdminBackToken == AdminPrefix + "back"
    ensures SpeakerQuestionsBackToken == SpeakerPrefix + "questions_back"
  {
  }

  /** The longer prefixes `admin_actions` tests first (`user_to_user_`,
      `user_delete_`, ...) extend the shorter ones they must shadow. */
  lemma LiteralNesting()
    ensures UserToUserPrefix == UserPrefix + "to_user_"
    ensures UserDeletePrefix == UserPrefix + "delete_"
    ensures SpeakerDeletePrefix == SpeakerPrefix + "delete_"
    ensures EventDeletePrefix == EventPrefix + "delete_"
    ensures QuestionDeletePrefix == QuestionPrefix + "delete_"
  {
  }

  /** Tokens of the admin panel's action buttons reach none of the
      handlers registered before `admin_`. */
  lemma AudienceSkips(t: string, p: string)
    requires StartsWith(t, p) && |p| >= 2
    requires p[0] in {'u', 'e', 'q'} || (p[0] == 'a' && p[1] == 'd')
             || (p[0] == 's' && t != SpeakerQuestionsBackToken)
    ensures RouteAudience(t) == None
  {
    if p[0] == 'a' {
      Mismatch(t, p, AskBackToken, 1);
      Mismatch(t, p, AskPrefix, 1);
      Mismatch(t, p, AnswerPrefix, 1);
    } else {
      Mismatch(t, p, AskBackToken, 0);
      Mismatch(t, p, AskPrefix, 0);
      Mismatch(t, p, AnswerPrefix, 0);
    }
  }

  /** Tokens not starting with `a` reach neither `admin_menu` nor `admin_back`. */
  lemma AdminSkips(t: string, p: string)
    requires StartsWith(t, p) && |p| >= 1 && p[0] != 'a'
    ensures RouteAdmin(t) == None
  {
    Mismatch(t, p, AdminPrefix, 0);
    Mismatch(t, p, AdminBackToken, 0);
  }

  /** Tokens not starting with `u` reach no user branch of `admin_actions`. */
  lemma UserSkips(t: string, p: string)
    requires StartsWith(t, p) && |p| >= 1 && p[0] != 'u'
    ensures RouteUser(t) == None
  {
    Mismatch(t, p, UserPrefix, 0);
    Mismatch(t, p, UserToUserPrefix, 0);
    Mismatch(t, p, UserDeletePrefix, 0);
  }

  /** Tokens not starting with `s` reach no speaker branch of `admin_actions`. */
  lemma SpeakerSkips(t: string, p: string)
    requires StartsWith(t, p) && |p| >= 1 && p[0] != 's'
    ensures RouteSpeaker(t) == None
  {
    Mismatch(t, p, SpeakerPrefix, 0);
    Mismatch(t, p, SpeakerDeletePrefix, 0);
  }

  /** Tokens not starting with `e` reach no event branch of `admin_actions`. */
  lemma EventSkips(t: string, p: string)
    requires StartsWith(t, p) && |p| >= 1 && p[0] != 'e'
    ensures RouteEvent(t) == None
  {
    Mismatch(t, p, EventPrefix, 0);
    Mismatch(t, p, EventDeletePrefix, 0);
  }

  /** `BuildRoute` for the commands of `ask_`, `speaker_questions_back` and `answer_`. */
  lemma BuildRouteAudience(c: Command)
    requires c.AskBack? || c.AskSpeaker? || c.SpeakerQuestionsBack? || c.AnswerPick?
    requires WellFormed(c)
    ensures Route(Build(c)) == Some(c)
  {
    var t := Build(c);
    LiteralBacks();
    match c
    case AskBack =>
    case AskSpeaker(x) =>
      StartsWithConcat(AskPrefix, x);
      Cancel(AskPrefix, x, "back");
    case SpeakerQuestionsBack =>
      StartsWithConcat(t, "");
      Mismatch(t, t, AskBackToken, 0);
      Mismatch(t, t, AskPrefix, 0);
    case AnswerPick(x) =>
      StartsWithConcat(AnswerPrefix, x);
      Mismatch(t, AnswerPrefix, AskBackToken, 1);
      Mismatch(t, AnswerPrefix, AskPrefix, 1);
      Mismatch(t, AnswerPrefix, SpeakerQuestionsBackToken, 0);
  }

  /** `BuildRoute` for the commands of `admin_` and `admin_back`. */
  lemma BuildRouteAdmin(c: Command)
    requires c.AdminMenu? || c.AdminBack?
    requires WellFormed(c)
    ensures Route(Build(c)) == Some(c)
  {
    var t := Build(c);
    LiteralBacks();
    match c
    case AdminMenu(x) =>
      StartsWithConcat(AdminPrefix, x);
      Cancel(AdminPrefix, x, "back");
      AudienceSkips(t, AdminPrefix);
    case AdminBack =>
      StartsWithConcat(AdminPrefix, "back");
      AudienceSkips(t, AdminPrefix);
  }

  /** `BuildRoute` for the commands of the user branches of `admin_actions`. */
  lemma BuildRouteUser(c: Command)
    requires c.UserInfo? || c.UserToUser? || c.UserDelete?
    requires WellFormed(c)
    ensures Route(Build(c)) == Some(c)
  {
    var t := Build(c);
    LiteralNesting();
    match c {
    case UserInfo(x) =>
      StartsWithConcat(UserPrefix, x);
      StartsWithBelow(UserPrefix, x, "to_user_");
      StartsWithBelow(UserPrefix, x, "delete_");
    case UserToUser(x) =>
      assert t == UserPrefix + ("to_user_" + x);
      StartsWithConcat(UserPrefix, "to_user_" + x);
      StartsWithConcat(UserToUserPrefix, x);
    case UserDelete(x) =>
      assert t == UserPrefix + ("delete_" + x);
      StartsWithConcat(UserPrefix, "delete_" + x);
      StartsWithConcat(UserDeletePrefix, x);
      Mismatch(t, UserDeletePrefix, UserToUserPrefix, 5);
    }
    AudienceSkips(t, UserPrefix);
    AdminSkips(t, UserPrefix);
  }

  /** `BuildRoute` for the commands of the speaker branches. */
  lemma BuildRouteSpeaker(c: Command)
    requires c.SpeakerInfo? || c.SpeakerDelete?
    requires WellFormed(c)
    ensures Route(Build(c)) == Some(c)
  {
    var t := Build(c);
    LiteralNesting();
    LiteralBacks();
    match c {
    case SpeakerInfo(x) =>
      StartsWithConcat(SpeakerPrefix, x);
      StartsWithBelow(SpeakerPrefix, x, "delete_");
      Cancel(SpeakerPrefix, x, "questions_back");
    case SpeakerDelete(x) =>
      assert t == SpeakerPrefix + ("delete_" + x);
      StartsWithConcat(SpeakerPrefix, "delete_" + x);
      StartsWithConcat(SpeakerDeletePrefix, x);
      Mismatch(t, SpeakerDeletePrefix, SpeakerQuestionsBackToken, 8);
    }
    AudienceSkips(t, SpeakerPrefix);
    AdminSkips(t, SpeakerPrefix);
    UserSkips(t, SpeakerPrefix);
  }

  /** `BuildRoute` for the commands of the event branches. */
  lemma BuildRouteEvent(c: Command)
    requires c.EventInfo? || c.EventDelete?
    requires WellFormed(c)
    ensures Route(Build(c)) == Some(c)
  {
    var t := Build(c);
    LiteralNesting();
    match c {
    case EventInfo(x) =>
      StartsWithConcat(EventPrefix, x);
      StartsWithBelow(EventPrefix, x, "delete_");
    case EventDelete(x) =>
      assert t == EventPrefix + ("delete_" + x);
      StartsWithConcat(EventPrefix, "delete_" + x);
      StartsWithConcat(EventDeletePrefix, x);
    }
    AudienceSkips(t, EventPrefix);
    AdminSkips(t, EventPrefix);
    UserSkips(t, EventPrefix);
    SpeakerSkips(t, EventPrefix);
  }

  /** `BuildRoute` for the commands of the question branches. */
  lemma BuildRouteQuestion(c: Command)
    requires c.QuestionInfo? || c.QuestionDelete?
    requires WellFormed(c)
    ensures Route(Build(c)) == Some(c)
  {
    var t := Build(c);
    LiteralNesting();
    match c {
    case QuestionInfo(x) =>
      StartsWithConcat(QuestionPrefix, x);
      StartsWithBelow(QuestionPrefix, x, "delete_");
    case QuestionDelete(x) =>
      assert t == QuestionPrefix + ("delete_" + x);
      StartsWithConcat(QuestionPrefix, "delete_" + x);
      StartsWithConcat(QuestionDeletePrefix, x);
    }
    AudienceSkips(t, QuestionPrefix);
    AdminSkips(t, QuestionPrefix);
    UserSkips(t, QuestionPrefix);
    SpeakerSkips(t, QuestionPrefix);
    EventSkips(t, QuestionPrefix);
  }

  /** Every well-formed command's button reaches its own handler with its
      own argument: `Route` undoes `Build`. */
  lemma BuildRoute(c: Command)
    requires WellFormed(c)
    ensures Route(Build(c)) == Some(c)
  {
    if c.AskBack? || c.AskSpeaker? || c.SpeakerQuestionsBack? || c.AnswerPick? {
      BuildRouteAudience(c);
    } else if c.AdminMenu? || c.AdminBack? {
      BuildRouteAdmin(c);
    } else if c.UserInfo? || c.UserToUser? || c.UserDelete? {
      BuildRouteUser(c);
    } else if c.SpeakerInfo? || c.SpeakerDelete? {
      BuildRouteSpeaker(c);
    } else if c.EventInfo? || c.EventDelete? {
      BuildRouteEvent(c);
    } else {
      BuildRouteQuestion(c);
    }
  }

  // ---------------------------------------------------------------------
  // Tokens the bot draws
  // ---------------------------------------------------------------------

  /** A decimal number never spells `back`, `questions_back` or a string
      starting with a longer branch's prefix. */
  lemma NumberArgsWellFormed(n: int)
    ensures WellFormed(AskSpeaker(IntToStr(n))) && WellFormed(AdminMenu(IntToStr(n)))
    ensures WellFormed(UserInfo(IntToStr(n))) && WellFormed(SpeakerInfo(IntToStr(n)))
    ensures WellFormed(EventInfo(IntToStr(n))) && WellFormed(QuestionInfo(IntToStr(n)))
  {
    var s := IntToStr(n);
    IntToStrNoUnderscore(n);
    assert s != "back" by { assert "back"[0] == 'b'; }
    assert !StartsWith(s, "to_user_") by { assert "to_user_"[2] == '_'; }
    assert !StartsWith(s, "delete_") by { assert "delete_"[6] == '_'; }
    assert s != "questions_back" by { assert "questions_back"[9] == '_'; }
  }

  /** Every button the bot draws with a user id or a position reaches the
      handler it was drawn for, with that id or position as argument. */
  lemma DrawnButtonsRoute(n: int)
    ensures Route(Build(AskSpeaker(IntToStr(n)))) == Some(AskSpeaker(IntToStr(n)))
    ensures Route(Build(AnswerPick(IntToStr(n)))) == Some(AnswerPick(IntToStr(n)))
    ensures Route(Build(UserInfo(IntToStr(n)))) == Some(UserInfo(IntToStr(n)))
    ensures Route(Build(UserToUser(IntToStr(n)))) == Some(UserToUser(IntToStr(n)))
    ensures Route(Build(UserDelete(IntToStr(n)))) == Some(UserDelete(IntToStr(n)))
    ensures Route(Build(SpeakerInfo(IntToStr(n)))) == Some(SpeakerInfo(IntToStr(n)))
    ensures Route(Build(SpeakerDelete(IntToStr(n)))) == Some(SpeakerDelete(IntToStr(n)))
    ensures Route(Build(EventInfo(IntToStr(n)))) == Some(EventInfo(IntToStr(n)))
    ensures Route(Build(EventDelete(IntToStr(n)))) == Some(EventDelete(IntToStr(n)))
    ensures Route(Build(QuestionInfo(IntToStr(n)))) == Some(QuestionInfo(IntToStr(n)))
    ensures Route(Build(QuestionDelete(IntToStr(n)))) == Some(QuestionDelete(IntToStr(n)))
  {
    var s := IntToStr(n);
    NumberArgsWellFormed(n);
    BuildRoute(AskSpeaker(s));
    BuildRoute(AnswerPick(s));
    BuildRoute(UserInfo(s));
    BuildRoute(UserToUser(s));
    BuildRoute(UserDelete(s));
    BuildRoute(SpeakerInfo(s));
    BuildRoute(SpeakerDelete(s));
    BuildRoute(EventInfo(s));
    BuildRoute(EventDelete(s));
    BuildRoute(QuestionInfo(s));
    BuildRoute(QuestionDelete(s));
  }

  /** The buttons drawn after a question is deleted carry `question_<i>`
      or `none`, which no registered handler accepts. */
  lemma RedrawnQuestionButtonsDead(n: int)
    ensures Route("question_" + IntToStr(n)) == None
    ensures Route("none") == None
  {
    var t := "question_" + IntToStr(n);
    StartsWithConcat("question_", IntToStr(n));
    AudienceSkips(t, "question_");
    AdminSkips(t, "question_");
    UserSkips(t, "question_");
    SpeakerSkips(t, "question_");
    EventSkips(t, "question_");
    Mismatch(t, "question_", QuestionPrefix, 1);
    Mismatch(t, "question_", QuestionDeletePrefix, 1);
    var z := "none";
    StartsWithConcat(z, "");
    assert z + "" == z;
    Mismatch(z, z, AskBackToken, 0);
    Mismatch(z, z, AskPrefix, 0);
    Mismatch(z, z, SpeakerQuestionsBackToken, 0);
    Mismatch(z, z, AnswerPrefix, 0);
    AdminSkips(z, z);
    UserSkips(z, z);
    SpeakerSkips(z, z);
    EventSkips(z, z);
    Mismatch(z, z, QuestionPrefix, 0);
    Mismatch(z, z, QuestionDeletePrefix, 0);
  }
}

=== FILE: seqs.dfy ===
/** Order-preserving list operations the bot performs on its event list and
    question log: list comprehensions with a condition, positional `pop`, and
    the lookup of the n-th element of a filtered view in the full list. */
module Seqs {

  /** `a` is obtained from `b` by deleting elements, keeping the order of the rest. */
  ghost predicate IsSubsequence<T>(a: seq<T>, b: seq<T>)
    decreases |b|
  {
    if a == [] then true
    else if b == [] then false
    else if a[0] == b[0] then IsSubsequence(a[1..], b[1..])
    else IsSubsequence(a, b[1..])
  }

  /** The list comprehension `[x for x in s if p(x)]`.  The result is the
      subsequence of `s` made of exactly the elements satisfying `p`, each
      with its multiplicity in `s`. */
  function Filter<T(==, !new)>(s: seq<T>, p: T -> bool): (r: seq<T>)
    ensures |r| <= |s|
    ensures forall x :: x in r ==> x in s && p(x)
    ensures forall i :: 0 <= i < |s| && p(s[i]) ==> s[i] in r
  {
    if s == [] then []
    else
      var rest := Filter(s[1..], p);
      assert forall i :: 1 <= i < |s| ==> s[i] == s[1..][i - 1];
      if p(s[0]) then [s[0]] + rest else rest
  }

  /** `Filter` keeps exactly the elements satisfying `p`, with their
      multiplicities, in their original relative order. */
  lemma {:induction false} FilterExact<T(!new)>(s: seq<T>, p: T -> bool)
    ensures IsSubsequence(Filter(s, p), s)
    ensures forall x :: multiset(Filter(s, p))[x] == if p(x) then multiset(s)[x] else 0
    decreases |s|
  {
    if s != [] {
      FilterExact(s[1..], p);
      assert s == [s[0]] + s[1..];
      var r := Filter(s, p);
      if p(s[0]) {
        assert r[1..] == Filter(s[1..], p);
      }
    }
  }

  /** Filtering a list that grew by one element at the end. */
  lemma {:induction false} FilterSnoc<T(!new)>(s: seq<T>, x: T, p: T -> bool)
    ensures Filter(s + [x], p) == if p(x) then Filter(s, p) + [x] else Filter(s, p)
    decreases |s|
  {
    if s == [] {
      assert s + [x] == [x];
      assert Filter([x][1..], p) == [];
    } else {
      assert (s + [x])[1..] == s[1..] + [x];
      FilterSnoc(s[1..], x, p);
    }
  }

  /** Filtering keeps a list untouched exactly when every element passes. */
  lemma {:induction false} FilterAll<T(!new)>(s: seq<T>, p: T -> bool)
    ensures Filter(s, p) == s <==> forall i :: 0 <= i < |s| ==> p(s[i])
    decreases |s|
  {
    if s != [] {
      FilterAll(s[1..], p);
      if !p(s[0]) {
        assert |Filter(s, p)| <= |s[1..]| < |s|;
      }
      assert forall i :: 1 <= i < |s| ==> s[i] == s[1..][i - 1];
    }
  }

  /** A slice of a suffix is a slice of the whole. */
  lemma SliceOfSlice<T>(s: seq<T>, i: nat, n: nat)
    requires i + n <= |s|
    ensures s[i..][..n] == s[i..i + n] && s[i..][n..] == s[i + n..]
  {
  }

  /** A prefix `r` of a suffix `t == s[i..]` sits at `i` in `s`, and what
      follows it in `t` is what follows it in `s`. */
  lemma SliceChain<T>(s: seq<T>, t: seq<T>, r: seq<T>, i: nat)
    requires i <= |s| && t == s[i..] && |r| <= |t| && r == t[..|r|]
    ensures i + |r| <= |s| && s[i..i + |r|] == r && s[i + |r|..] == t[|r|..]
  {
    SliceOfSlice(s, i, |r|);
  }

  /** Position in `s` of the `n`-th element (from 0) that satisfies `p`:
      the element a button of a filtered view refers to in the full list. */
  function NthIndex<T(==, !new)>(s: seq<T>, p: T -> bool, n: nat): (k: nat)
    requires n < |Filter(s, p)|
    ensures k < |s|
    ensures p(s[k])
    ensures s[k] == Filter(s, p)[n]
    ensures |Filter(s[..k], p)| == n
    decreases |s|
  {
    assert s != [];
    assert s[..0] == [];
    if p(s[0]) && n == 0 then 0
    else
      var m: nat := if p(s[0]) then n - 1 else n;
      var k := NthIndex(s[1..], p, m);
      NthIndexStep(s, p, n, m, k);
      k + 1
  }

  /** One element more in front: the `m`-th match of `s[1..]` at `k` is
      the `n`-th match of `s` at `k + 1`. */
  lemma NthIndexStep<T(!new)>(s: seq<T>, p: T -> bool, n: nat, m: nat, k: nat)
    requires s != [] && m == (if p(s[0]) then n - 1 else n)
    requires k < |s| - 1 && m < |Filter(s[1..], p)|
    requires s[1..][k] == Filter(s[1..], p)[m] && |Filter(s[1..][..k], p)| == m
    ensures s[k + 1] == Filter(s, p)[n]
    ensures |Filter(s[..k + 1], p)| == n
  {
    SliceOfSlice(s, 1, k);
    var pre := s[..k + 1];
    assert pre[0] == s[0] && pre[1..] == s[1..][..k];
  }

  /** The last element satisfying `p` in `s + [x]`, when `x` satisfies it, is `x`. */
  lemma NthIndexOfLast<T(!new)>(s: seq<T>, x: T, p: T -> bool)
    requires p(x)
    ensures |Filter(s + [x], p)| == |Filter(s, p)| + 1
    ensures NthIndex(s + [x], p, |Filter(s, p)|) == |s|
  {
    FilterSnoc(s, x, p);
    var k := NthIndex(s + [x], p, |Filter(s, p)|);
    if k < |s| {
      assert (s + [x])[k] == s[k];
      SnocPrefix(s, x, k);
      PrefixFilterShorter(s, k, p);
    }
  }

  lemma SnocPrefix<T>(s: seq<T>, x: T, k: nat)
    requires k <= |s|
    ensures (s + [x])[..k] == s[..k]
  {
  }

  /** A proper prefix that ends before an element satisfying `p` has fewer
      such elements than the whole list. */
  lemma {:induction false} PrefixFilterShorter<T(!new)>(s: seq<T>, k: nat, p: T -> bool)
    requires k < |s| && p(s[k])
    ensures |Filter(s[..k], p)| < |Filter(s, p)|
    decreases |s|
  {
    if k == 0 {
      assert s[..0] == [];
    } else {
      assert s[..k][1..] == s[1..][..k - 1];
      PrefixFilterShorter(s[1..], k - 1, p);
    }
  }

  /** `s.pop(i)` for an index in range: the list without its `i`-th element,
      later elements moving down by one. */
  function RemoveAt<T>(s: seq<T>, i: nat): (r: seq<T>)
    requires i < |s|
    ensures |r| == |s| - 1
    ensures forall j :: 0 <= j < i ==> r[j] == s[j]
    ensures forall j :: i <= j < |r| ==> r[j] == s[j + 1]
    ensures multiset(r) + multiset{s[i]} == multiset(s)
  {
    assert s == s[..i] + [s[i]] + s[i + 1..];
    s[..i] + s[i + 1..]
  }
}

=== FILE: store.dfy ===
/** The bot's single in-memory document (`db` in tg_bot.py) and the helper
    operations every handler uses on it.  Keys of the three dictionaries are
    user ids rendered with `str`; questions carry the ids as integers. */
module Store {
  import opened Base
  import opened Seqs
  import opened Text

  datatype Role = User | Speaker | Admin

  datatype Event = Event(
    title: string,
    description: string,
    speakerId: string,
    speakerName: string,
    createdAt: int)

  /** A question from one user to a speaker; `answer` and `answeredAt` are
      absent until the speaker answers. */
  datatype Question = Question(
    from: int,
    to: int,
    text: string,
    answer: Option<string>,
    createdAt: int,
    answeredAt: Option<int>)

  /** Rate-limit state of the speaker password challenge. */
  datatype Attempts = Attempts(tries: int, blockedUntil: Option<int>)

  datatype DB = DB(
    roles: map<string, Role>,
    events: seq<Event>,
    speakers: map<string, string>,
    questions: seq<Question>,
    attempts: map<string, Attempts>)

  /** The document used when nothing could be loaded. */
  const EmptyDB := DB(map[], [], map[], [], map[])

  /** The dictionary key of a user id, `str(uid)`. */
  function Key(uid: int): string {
    IntToStr(uid)
  }

  lemma KeyInjective(a: int, b: int)
    ensures Key(a) == Key(b) <==> a == b
  {
    if Key(a) == Key(b) {
      IntToStrInjective(a, b);
    }
  }

  // ---------------------------------------------------------------------
  // The "back" label
  // ---------------------------------------------------------------------

  const BackKeys: set<string> := {"\U{1F519} Назад", "\U{2B05} Назад", "Назад"}

  /** `is_back`: the message, stripped of surrounding whitespace, is one of
      the three back labels. */
  function IsBack(text: string): (b: bool)
    // the converse of BackLabelsPadded: "back" is a label with whitespace around it
    ensures b ==> exists i, j ::
                    && 0 <= i <= j <= |text|
                    && AllBlank(IsSpace, text[..i]) && text[i..j] in BackKeys && AllBlank(IsSpace, text[j..])
  {
    StripFrame(IsSpace, text);
    var i, j := StripStart(IsSpace, text), StripEnd(IsSpace, text);
    assert text[i..j] == Strip(IsSpace, text);
    Strip(IsSpace, text) in BackKeys
  }

  /** Every back label, with any surrounding whitespace, reads as "back". */
  lemma BackLabelsPadded(pre: string, key: string, post: string)
    requires key in BackKeys
    requires AllBlank(IsSpace, pre) && AllBlank(IsSpace, post)
    ensures IsBack(pre + key + post)
  {
    assert !IsSpace(key[0]);
    assert key[|key| - 1] == '\U{0434}';
    StripPadded(IsSpace, pre, key, post);
  }

  // ---------------------------------------------------------------------
  // Roles and speakers
  // ---------------------------------------------------------------------

  /** `get_role`: the stored role, `user` for a user without an entry. */
  function GetRole(roles: map<string, Role>, k: string): (r: Role)
    ensures k in roles ==> r == roles[k]
    ensures k !in roles ==> r == User
  {
    Lookup(roles, k).GetOr(User)
  }

  /** `set_role`: only the role of `k` changes. */
  function SetRole(db: DB, k: string, role: Role): (r: DB)
    ensures GetRole(r.roles, k) == role
    ensures forall j :: j != k ==> GetRole(r.roles, j) == GetRole(db.roles, j)
    ensures r.roles.Keys == db.roles.Keys + {k}
    ensures r.(roles := db.roles) == db
  {
    db.(roles := db.roles[k := role])
  }

  /** `register_speaker`: records the display name of `k`. */
  function RegisterSpeaker(db: DB, k: string, name: string): (r: DB)
    ensures k in r.speakers && r.speakers[k] == name
    ensures forall j :: j != k ==> Lookup(r.speakers, j) == Lookup(db.speakers, j)
    ensures r.(speakers := db.speakers) == db
  {
    db.(speakers := db.speakers[k := name])
  }

  // ---------------------------------------------------------------------
  // Questions seen from one user
  // ---------------------------------------------------------------------

  /** Questions not involving user `n`, the condition `remove_user` keeps. */
  function Unrelated(n: int): Question -> bool {
    (q: Question) => q.from != n && q.to != n
  }

  /** Questions addressed to user `n` (the speaker's list of questions). */
  function AddressedTo(n: int): Question -> bool {
    (q: Question) => q.to == n
  }

  /** Questions asked by `n` whose answer is a non-empty string (Python
      treats both `None` and `""` as false). */
  function AnsweredFor(n: int): Question -> bool {
    (q: Question) => q.from == n && q.answer.Some? && q.answer.value != ""
  }

  /** `user_answers`: the questions user `n` asked that have an answer, in
      log order. */
  function AnswersOf(questions: seq<Question>, n: int): (r: seq<Question>)
    ensures forall q :: q in r <==> q in questions && q.from == n && q.answer.Some? && q.answer.value != ""
    ensures IsSubsequence(r, questions)
    ensures forall q :: multiset(r)[q] == if AnsweredFor(n)(q) then multiset(questions)[q] else 0
  {
    FilterExact(questions, AnsweredFor(n));
    Filter(questions, AnsweredFor(n))
  }

  /** The list a speaker picks a question to answer from. */
  function QuestionsTo(questions: seq<Question>, n: int): (r: seq<Question>)
    ensures forall q :: q in r <==> q in questions && q.to == n
    ensures IsSubsequence(r, questions)
    ensures forall q :: multiset(r)[q] == if q.to == n then multiset(questions)[q] else 0
  {
    FilterExact(questions, AddressedTo(n));
    Filter(questions, AddressedTo(n))
  }

  // ---------------------------------------------------------------------
  // Cascade delete
  // ---------------------------------------------------------------------

  /** `remove_user(uid)` raises when `int(uid)` fails, which Python only
      evaluates when there is at least one question to test. */
  predicate RemoveUserRaises(db: DB, k: string) {
    ParseInt(k).None? && |db.questions| > 0
  }

  /** `remove_user`: drops the role and speaker entries of `k` and every
      question sent by or to the user `int(k)`.  When `int(k)` fails the two
      entries are already gone and the questions stay as they were. */
  function RemoveUser(db: DB, k: string): (r: DB)
    ensures k !in r.roles && k !in r.speakers
    ensures forall j :: j != k ==> Lookup(r.roles, j) == Lookup(db.roles, j)
    ensures forall j :: j != k ==> Lookup(r.speakers, j) == Lookup(db.speakers, j)
    ensures r.events == db.events && r.attempts == db.attempts
    ensures ParseInt(k).None? ==> r.questions == db.questions
    ensures ParseInt(k).Some? ==>
      var n := ParseInt(k).value;
      && (forall q :: q in r.questions ==> q in db.questions && q.from != n && q.to != n)
      && (forall q :: q in db.questions && q.from != n && q.to != n ==> q in r.questions)
  {
    var questions :=
      match ParseInt(k)
      case None => db.questions
      case Some(n) => Filter(db.questions, Unrelated(n));
    db.(roles := db.roles - {k}, speakers := db.speakers - {k}, questions := questions)
  }

  /** Deleting a user by id: nothing refers to that id any more, the
      remaining questions keep their order and multiplicities, and the
      event list is untouched. */
  lemma CascadeDelete(db: DB, uid: int)
    ensures var r := RemoveUser(db, Key(uid));
      && Key(uid) !in r.roles && Key(uid) !in r.speakers
      && (forall q :: q in r.questions ==> q.from != uid && q.to != uid)
      && IsSubsequence(r.questions, db.questions)
      && (forall q: Question :: q.from != uid && q.to != uid ==> multiset(r.questions)[q] == multiset(db.questions)[q])
      && r.events == db.events
      && !RemoveUserRaises(db, Key(uid))
  {
    ParseIntToStr(uid);
    RemoveNumericKey(db, Key(uid), uid);
  }

  /** `remove_user` on a key that parses as the id `n`. */
  lemma RemoveNumericKey(db: DB, k: string, n: int)
    requires ParseInt(k) == Some(n)
    ensures var r := RemoveUser(db, k);
      && k !in r.roles && k !in r.speakers
      && (forall q :: q in r.questions ==> q.from != n && q.to != n)
      && IsSubsequence(r.questions, db.questions)
      && (forall q: Question :: q.from != n && q.to != n ==> multiset(r.questions)[q] == multiset(db.questions)[q])
      && r.events == db.events
      && !RemoveUserRaises(db, k)
  {
    FilterExact(db.questions, Unrelated(n));
    assert RemoveUser(db, k).questions == Filter(db.questions, Unrelated(n));
  }

  // ---------------------------------------------------------------------
  // Fan-out
  // ---------------------------------------------------------------------

  /** What `str(None)` gives: the key `notify_all` skips when called
      without an `exclude` argument. */
  const NoExclude := "None"

  /** The users `notify_all(text, exclude)` tries to reach: every key of
      the role table except `exclude`.  Delivery failures are swallowed, so
      this is the set of attempted recipients. */
  function Recipients(roles: map<string, Role>, exclude: string): (r: set<string>)
    ensures r <= roles.Keys && exclude !in r
    ensures forall k :: k in roles && k != exclude ==> k in r
  {
    set k | k in roles && k != exclude
  }
}

=== FILE: text.dfy ===
/** The few Python string operations the bot's parsing relies on:
    `str.strip()`, `str.startswith`, `str.split(sep, maxsplit)`, `str(int)`
    and `int(str)`.  Strings are sequences of Unicode code points. */
module Text {
  import opened Base
  import opened Seqs

  /** `s.startswith(p)`. */
  predicate StartsWith(s: string, p: string) {
    |p| <= |s| && s[..|p|] == p
  }

  lemma StartsWithConcat(p: string, x: string)
    ensures StartsWith(p + x, p)
    ensures (p + x)[|p|..] == x
  {
    assert (p + x)[..|p|] == p;
  }

  /** Below a common prefix, `startswith` only depends on what follows it. */
  lemma StartsWithBelow(p: string, u: string, q: string)
    ensures StartsWith(p + u, p + q) <==> StartsWith(u, q)
  {
    if StartsWith(u, q) {
      assert (p + u)[..|p + q|] == p + u[..|q|];
    }
    if StartsWith(p + u, p + q) {
      assert u[..|q|] == (p + u)[..|p + q|][|p|..];
    }
  }

  // ---------------------------------------------------------------------
  // Whitespace and str.strip()
  // ---------------------------------------------------------------------

  /** The characters Python's `str.isspace()` accepts; `str.strip()` and
      `str.split()` treat exactly these as whitespace. */
  predicate IsSpace(c: char) {
    || c == '\t' || c == '\n' || c == '\U{000B}' || c == '\U{000C}' || c == '\r'
    || ('\U{001C}' <= c <= '\U{001F}') || c == ' ' || c == '\U{0085}' || c == '\U{00A0}'
    || c == '\U{1680}' || ('\U{2000}' <= c <= '\U{200A}') || c == '\U{2028}' || c == '\U{2029}'
    || c == '\U{202F}' || c == '\U{205F}' || c == '\U{3000}'
  }

  /** The whitespace `int()` skips around its digits: every `IsSpace`
      character except the ASCII separators U+001C..U+001F, which it hands
      to its ASCII digit parser, which rejects them. */
  predicate IsIntSpace(c: char) {
    IsSpace(c) && !('\U{001C}' <= c <= '\U{001F}')
  }

  /** Every character of `s` is one of the blanks `blank`. */
  ghost predicate AllBlank(blank: char -> bool, s: string) {
    forall i :: 0 <= i < |s| ==> blank(s[i])
  }

  /** `s.lstrip()`, for the blank characters `blank`. */
  function TrimStart(blank: char -> bool, s: string): (r: string)
    ensures |r| <= |s| && r == s[|s| - |r|..]
    ensures r != [] ==> !blank(r[0])
  {
    if s != [] && blank(s[0]) then TrimStart(blank, s[1..]) else s
  }

  /** What `TrimStart` drops is all blank. */
  lemma {:induction false} TrimStartBlanks(blank: char -> bool, s: string)
    ensures forall i :: 0 <= i < |s| - |TrimStart(blank, s)| ==> blank(s[i])
  {
    if s != [] && blank(s[0]) {
      TrimStartBlanks(blank, s[1..]);
      forall i | 0 < i < |s| - |TrimStart(blank, s)|
        ensures blank(s[i])
      {
        assert s[i] == s[1..][i - 1];
      }
    }
  }

  /** `s.rstrip()`, for the blank characters `blank`. */
  function TrimEnd(blank: char -> bool, s: string): (r: string)
    ensures |r| <= |s| && r == s[..|r|]
    ensures r != [] ==> !blank(r[|r| - 1])
  {
    if s != [] && blank(s[|s| - 1]) then TrimEnd(blank, s[..|s| - 1]) else s
  }

  /** What `TrimEnd` drops is all blank. */
  lemma {:induction false} TrimEndBlanks(blank: char -> bool, s: string)
    ensures forall i :: |TrimEnd(blank, s)| <= i < |s| ==> blank(s[i])
  {
    if s != [] && blank(s[|s| - 1]) {
      TrimEndBlanks(blank, s[..|s| - 1]);
      assert TrimEnd(blank, s) == TrimEnd(blank, s[..|s| - 1]);
      forall i | |TrimEnd(blank, s)| <= i < |s| - 1
        ensures blank(s[i])
      {
        assert s[i] == s[..|s| - 1][i];
      }
    }
  }

  /** `s.strip()` for `blank == IsSpace`, the skipping `int()` does for
      `blank == IsIntSpace`: the slice of `s` left after removing the blanks at
      both ends; it neither starts nor ends with one. */
  function Strip(blank: char -> bool, s: string): (r: string)
    ensures |r| <= |s|
    ensures r != [] ==> !blank(r[0]) && !blank(r[|r| - 1])
  {
    TrimEnd(blank, TrimStart(blank, s))
  }

  lemma {:induction false} TrimStartPadded(blank: char -> bool, pre: string, rest: string)
    requires AllBlank(blank, pre)
    requires rest == [] || !blank(rest[0])
    ensures TrimStart(blank, pre + rest) == rest
    decreases |pre|
  {
    if pre != [] {
      var s := pre + rest;
      assert blank(s[0]);
      assert s[1..] == pre[1..] + rest;
      assert TrimStart(blank, s) == TrimStart(blank, s[1..]);
      TrimStartPadded(blank, pre[1..], rest);
    } else {
      assert pre + rest == rest;
    }
  }

  lemma {:induction false} TrimEndPadded(blank: char -> bool, rest: string, post: string)
    requires AllBlank(blank, post)
    requires rest == [] || !blank(rest[|rest| - 1])
    ensures TrimEnd(blank, rest + post) == rest
    decreases |post|
  {
    if post != [] {
      var s := rest + post;
      assert s[..|s| - 1] == rest + post[..|post| - 1];
      TrimEndPadded(blank, rest, post[..|post| - 1]);
    } else {
      assert rest + post == rest;
    }
  }

  /** `strip` removes exactly the surrounding whitespace: it is the inverse
      of padding a string that does not itself start or end with whitespace. */
  lemma StripPadded(blank: char -> bool, pre: string, core: string, post: string)
    requires AllBlank(blank, pre) && AllBlank(blank, post)
    requires core != [] ==> !blank(core[0]) && !blank(core[|core| - 1])
    ensures Strip(blank, pre + core + post) == core
  {
    if core == [] {
      assert pre + core + post == (pre + post) + [];
      TrimStartPadded(blank, pre + post, []);
    } else {
      assert pre + core + post == pre + (core + post);
      TrimStartPadded(blank, pre, core + post);
      TrimEndPadded(blank, core, post);
    }
  }

  /** Where `strip` cuts: it drops `s[..StripStart(blank, s)]` and
      `s[StripEnd(blank, s)..]`. */
  function StripStart(blank: char -> bool, s: string): nat {
    |s| - |TrimStart(blank, s)|
  }

  function StripEnd(blank: char -> bool, s: string): nat {
    StripStart(blank, s) + |Strip(blank, s)|
  }

  /** Every string is its `strip()` with blanks on either side. */
  lemma StripFrame(blank: char -> bool, s: string)
    ensures StripStart(blank, s) <= StripEnd(blank, s) <= |s|
    ensures s[StripStart(blank, s)..StripEnd(blank, s)] == Strip(blank, s)
    ensures AllBlank(blank, s[..StripStart(blank, s)]) && AllBlank(blank, s[StripEnd(blank, s)..])
  {
    StripFrameCore(blank, s);
    StripFrameAfter(blank, s);
    StripFrameHead(blank, s);
  }

  lemma StripFrameCore(blank: char -> bool, s: string)
    ensures StripStart(blank, s) <= StripEnd(blank, s) <= |s|
    ensures s[StripStart(blank, s)..StripEnd(blank, s)] == Strip(blank, s)
  {
    var t := TrimStart(blank, s);
    var r := TrimEnd(blank, t);
    SliceChain(s, t, r, |s| - |t|);
  }

  lemma StripFrameAfter(blank: char -> bool, s: string)
    ensures StripEnd(blank, s) <= |s| && AllBlank(blank, s[StripEnd(blank, s)..])
  {
    var t := TrimStart(blank, s);
    var r := TrimEnd(blank, t);
    assert StripEnd(blank, s) == |s| - |t| + |r|;
    TrimEndBlanks(blank, t);
    BlankTail(blank, s, t, r);
  }

  /** The blanks after a prefix `r` of a suffix `t` of `s` end `s`. */
  lemma BlankTail(blank: char -> bool, s: string, t: string, r: string)
    requires |t| <= |s| && t == s[|s| - |t|..] && |r| <= |t| && r == t[..|r|]
    requires forall k :: |r| <= k < |t| ==> blank(t[k])
    ensures |s| - |t| + |r| <= |s| && AllBlank(blank, s[|s| - |t| + |r|..])
  {
    var j := |s| - |t| + |r|;
    SliceChain(s, t, r, |s| - |t|);
    forall k | 0 <= k < |s| - j
      ensures blank(s[j..][k])
    {
      assert s[j..][k] == t[|r| + k];
    }
  }

  lemma StripFrameHead(blank: char -> bool, s: string)
    ensures StripStart(blank, s) <= |s| && s[StripStart(blank, s)..] == TrimStart(blank, s)
    ensures AllBlank(blank, s[..StripStart(blank, s)])
  {
    TrimStartBlanks(blank, s);
  }

  // ---------------------------------------------------------------------
  // str.split(sep, maxsplit) for a one-character separator
  // ---------------------------------------------------------------------

  /** Position of the first occurrence of `c` in `s`, if any. */
  function IndexOf(s: string, c: char): (r: Option<nat>)
    ensures r.Some? ==> r.value < |s| && s[r.value] == c && c !in s[..r.value]
    ensures r.None? ==> c !in s
  {
    if s == [] then None
    else if s[0] == c then Some(0)
    else
      match IndexOf(s[1..], c)
      case None => None
      case Some(i) =>
        assert s[..i + 1] == [s[0]] + s[1..][..i];
        Some(i + 1)
  }

  /** `sep.join(parts)` for a one-character separator. */
  function Join(parts: seq<string>, c: char): string
    requires |parts| >= 1
  {
    if |parts| == 1 then parts[0] else parts[0] + [c] + Join(parts[1..], c)
  }

  /** `s.split(c, maxsplit)`: cuts at the first `maxsplit` occurrences of `c`
      from the left.  Joining the pieces gives back `s`; no piece but the
      last contains `c`, and the last does not either when fewer than
      `maxsplit` cuts were made. */
  function SplitMax(s: string, c: char, maxsplit: nat): (r: seq<string>)
    ensures 1 <= |r| <= maxsplit + 1
    ensures Join(r, c) == s
    ensures forall i :: 0 <= i < |r| - 1 ==> c !in r[i]
    ensures |r| <= maxsplit ==> c !in r[|r| - 1]
    decreases maxsplit
  {
    if maxsplit == 0 then [s]
    else
      match IndexOf(s, c)
      case None => [s]
      case Some(i) =>
        var rest := SplitMax(s[i + 1..], c, maxsplit - 1);
        JoinCut(s, c, i, rest);
        assert ([s[..i]] + rest)[|rest|] == rest[|rest| - 1];
        [s[..i]] + rest
  }

  /** Cutting `s` at a separator at `i`: the piece before it joined to the
      pieces of what follows gives `s` back. */
  lemma JoinCut(s: string, c: char, i: nat, rest: seq<string>)
    requires i < |s| && s[i] == c && |rest| >= 1 && Join(rest, c) == s[i + 1..]
    ensures Join([s[..i]] + rest, c) == s
  {
    var r := [s[..i]] + rest;
    assert r[1..] == rest;
    assert s == s[..i] + [c] + s[i + 1..];
  }

  /** `p` is made of exactly `k` pieces, each ending in `c`: the shape of a
      callback prefix such as `user_to_user_` (three pieces ending in `_`). */
  predicate SepTerminated(p: string, c: char, k: nat)
    decreases k
  {
    if k == 0 then p == []
    else
      match IndexOf(p, c)
      case None => false
      case Some(i) => SepTerminated(p[i + 1..], c, k - 1)
  }

  lemma {:induction false} IndexOfPrefix(p: string, x: string, c: char)
    requires IndexOf(p, c).Some?
    ensures IndexOf(p + x, c) == IndexOf(p, c)
    decreases |p|
  {
    if p[0] != c {
      assert (p + x)[1..] == p[1..] + x;
      IndexOfPrefix(p[1..], x, c);
    }
  }

  lemma {:induction false} IndexOfAfterPiece(a: string, rest: string, c: char)
    requires c !in a
    ensures IndexOf(a + [c] + rest, c) == Some(|a|)
    decreases |a|
  {
    if a != [] {
      assert (a + [c] + rest)[1..] == a[1..] + [c] + rest;
      IndexOfAfterPiece(a[1..], rest, c);
    }
  }

  /** Prepending one separator-terminated piece to a `k`-piece prefix. */
  lemma SepTerminatedCons(a: string, rest: string, c: char, k: nat)
    requires c !in a && SepTerminated(rest, c, k)
    ensures SepTerminated(a + [c] + rest, c, k + 1)
  {
    IndexOfAfterPiece(a, rest, c);
    assert (a + [c] + rest)[|a| + 1..] == rest;
  }

  /** Splitting `p + x` at the `k` separators of a `k`-piece prefix `p`
      yields `x` as the last field: the argument recovered by
      `token.split("_", k)[k]` is exactly what was appended to the prefix. */
  lemma SplitStep(s: string, c: char, k: nat, i: nat)
    requires k > 0 && IndexOf(s, c) == Some(i)
    ensures SplitMax(s, c, k) == [s[..i]] + SplitMax(s[i + 1..], c, k - 1)
  {
  }

  lemma {:induction false} SplitAfterPrefix(p: string, x: string, c: char, k: nat)
    requires SepTerminated(p, c, k)
    ensures |SplitMax(p + x, c, k)| == k + 1
    ensures SplitMax(p + x, c, k)[k] == x
    decreases k
  {
    if k == 0 {
      assert p + x == x;
      assert SplitMax(p + x, c, 0) == [x];
    } else {
      var i := IndexOf(p, c).value;
      assert SepTerminated(p[i + 1..], c, k - 1);
      IndexOfPrefix(p, x, c);
      var s := p + x;
      assert s[i + 1..] == p[i + 1..] + x;
      SplitAfterPrefix(p[i + 1..], x, c, k - 1);
      var rest := SplitMax(p[i + 1..] + x, c, k - 1);
      SplitStep(s, c, k, i);
      assert SplitMax(s, c, k) == [s[..i]] + rest;
      assert ([s[..i]] + rest)[k] == rest[k - 1];
    }
  }

  /** The field `k` of `s.split(c, k)` for a string that starts with a
      `k`-piece prefix `p`: everything after the prefix. */
  lemma FieldAfterPrefix(s: string, p: string, c: char, k: nat)
    requires StartsWith(s, p) && SepTerminated(p, c, k)
    ensures |SplitMax(s, c, k)| == k + 1
    ensures SplitMax(s, c, k)[k] == s[|p|..]
  {
    assert s == p + s[|p|..];
    SplitAfterPrefix(p, s[|p|..], c, k);
  }

  // ---------------------------------------------------------------------
  // Decimal numbers: str(n) and int(s)
  // ---------------------------------------------------------------------

  predicate IsDigit(c: char) {
    '0' <= c <= '9'
  }

  function DigitValue(c: char): nat
    requires IsDigit(c)
  {
    (c as int) - ('0' as int)
  }

  function DigitChar(d: nat): (c: char)
    requires d < 10
    ensures IsDigit(c) && DigitValue(c) == d
  {
    (('0' as int) + d) as char
  }

  /** The value of a string of decimal digits, most significant first. */
  function DigitsValue(s: string): nat
    requires forall i :: 0 <= i < |s| ==> IsDigit(s[i])
  {
    if s == [] then 0 else DigitsValue(s[..|s| - 1]) * 10 + DigitValue(s[|s| - 1])
  }

  /** `str(n)` for `n >= 0`: decimal digits without leading zeros. */
  function NatToStr(n: nat): (r: string)
    ensures |r| >= 1
    ensures forall i :: 0 <= i < |r| ==> IsDigit(r[i])
    ensures r[0] == '0' ==> r == "0"
    ensures DigitsValue(r) == n
  {
    if n < 10 then [DigitChar(n)]
    else
      var r := NatToStr(n / 10) + [DigitChar(n % 10)];
      assert r[..|r| - 1] == NatToStr(n / 10);
      r
  }

  /** `str(n)`. */
  function IntToStr(n: int): (r: string)
    ensures |r| >= 1
    ensures r[0] == '-' <==> n < 0
    ensures forall i :: (if n < 0 then 1 else 0) <= i < |r| ==> IsDigit(r[i])
    ensures n < 0 ==> |r| >= 2 && r[1] != '0'
    ensures n >= 0 && r[0] == '0' ==> r == "0"
  {
    if n < 0 then
      var d := NatToStr(-n);
      assert d != "0";
      "-" + d
    else NatToStr(n)
  }

  /** `t[i]` and `t[i + 1]` are both underscores. */
  predicate UnderscorePair(t: string, i: int) {
    0 <= i < |t| - 1 && t[i] == '_' && t[i + 1] == '_'
  }

  /** `t` holds two underscores in a row somewhere. */
  predicate DoubledUnderscore(t: string) {
    exists i :: 0 <= i < |t| - 1 && UnderscorePair(t, i)
  }

  /** A pair of underscores after the first character is also a pair in
      the rest of the string. */
  lemma PairsAfterHead(t: string)
    ensures |t| > 0 && t[0] != '_' && DoubledUnderscore(t) ==> DoubledUnderscore(t[1..])
  {
    if |t| > 0 && t[0] != '_' && DoubledUnderscore(t) {
      var i :| 0 <= i < |t| - 1 && UnderscorePair(t, i);
      assert UnderscorePair(t[1..], i - 1);
    }
  }

  /** The digits-and-underscores body Python's `int()` accepts in base 10:
      digits, with single underscores allowed between two digits. */
  predicate DigitGroups(d: string) {
    && |d| > 0 && IsDigit(d[0]) && IsDigit(d[|d| - 1])
    && (forall i :: 0 <= i < |d| ==> IsDigit(d[i]) || d[i] == '_')
    && !DoubledUnderscore(d)
  }

  /** The value of a string accepted by `DigitGroups`: underscores are ignored. */
  function GroupsValue(d: string): nat
    requires DigitGroups(d)
  {
    DigitsValue(Filter(d, IsDigit))
  }

  /** `int(s)` in base 10 for ASCII digits: the blanks around the
      number (`IsIntSpace`) are skipped and an optional sign is allowed; `None` where
      Python raises `ValueError`. */
  function ParseInt(s: string): (r: Option<int>)
    // an empty or all-whitespace text and a lone sign raise
    ensures Strip(IsIntSpace, s) == [] ==> r.None?
    ensures Strip(IsIntSpace, s) == "-" || Strip(IsIntSpace, s) == "+" ==> r.None?
    // what is accepted starts with a digit or a sign, ends in a digit and
    // has no doubled underscore
    ensures r.Some? ==> Signed(Strip(IsIntSpace, s))
    ensures r.Some? ==> !DoubledUnderscore(Strip(IsIntSpace, s))
    // only a leading minus gives a negative number
    ensures r.Some? && r.value < 0 ==> Strip(IsIntSpace, s)[0] == '-'
  {
    ParseTrimmed(Strip(IsIntSpace, s))
  }

  /** `t` is a digit, or a sign, followed by anything and ending in a digit. */
  predicate Signed(t: string) {
    && |t| > 0 && (IsDigit(t[0]) || t[0] == '-' || t[0] == '+')
    && IsDigit(t[|t| - 1])
  }

  /** `int()` on a string already stripped of surrounding blanks. */
  function ParseTrimmed(t: string): (r: Option<int>)
    ensures t == [] || t == "-" || t == "+" ==> r.None?
    ensures r.Some? ==> Signed(t) && !DoubledUnderscore(t)
    ensures r.Some? && r.value < 0 ==> t[0] == '-'
  {
    var signed := |t| > 0 && (t[0] == '-' || t[0] == '+');
    var body := if signed then t[1..] else t;
    PairsAfterHead(t);
    if !DigitGroups(body) then None
    else if signed && t[0] == '-' then Some(0 - GroupsValue(body))
    else Some(GroupsValue(body))
  }

  /** `int()` accepts a number with any of its blanks around it, and the
      padding does not change the value. */
  lemma ParsePadded(pre: string, t: string, post: string)
    requires AllBlank(IsIntSpace, pre) && AllBlank(IsIntSpace, post)
    requires t != [] ==> !IsIntSpace(t[0]) && !IsIntSpace(t[|t| - 1])
    ensures ParseInt(pre + t + post) == ParseTrimmed(t)
  {
    StripPadded(IsIntSpace, pre, t, post);
  }

  /** The ASCII separators U+001C..U+001F are whitespace to `strip()`, which
      drops them, but `int()` rejects a text that starts or ends with one. */
  lemma SeparatorRejected(c: char, s: string)
    requires '\U{001C}' <= c <= '\U{001F}'
    ensures Strip(IsSpace, [c] + s) == Strip(IsSpace, s)
    ensures Strip(IsSpace, s + [c]) == Strip(IsSpace, s)
    ensures ParseInt([c] + s) == None
    ensures ParseInt(s + [c]) == None
  {
    SeparatorStripped(c, s);
    SeparatorHeadKept(c, s);
    SeparatorTailKept(c, s);
  }

  lemma SeparatorStripped(c: char, s: string)
    requires '\U{001C}' <= c <= '\U{001F}'
    ensures Strip(IsSpace, [c] + s) == Strip(IsSpace, s)
    ensures Strip(IsSpace, s + [c]) == Strip(IsSpace, s)
  {
    BlankCons(IsSpace, c, s);
    BlankPadTail(IsSpace, s, c);
  }

  /** A leading blank does not change `strip()`. */
  lemma BlankCons(blank: char -> bool, c: char, s: string)
    requires blank(c)
    ensures Strip(blank, [c] + s) == Strip(blank, s)
  {
    assert ([c] + s)[1..] == s;
  }

  /** A trailing blank does not change `strip()`. */
  lemma BlankPadTail(blank: char -> bool, s: string, c: char)
    requires blank(c)
    ensures Strip(blank, s + [c]) == Strip(blank, s)
  {
    var i, j := StripStart(blank, s), StripEnd(blank, s);
    var pre, mid, post := s[..i], s[i..j], s[j..] + [c];
    FramedSnoc(blank, s, c);
    StripPadded(blank, pre, mid, post);
  }

  /** The frame of `s`, with one more blank appended after it. */
  lemma FramedSnoc(blank: char -> bool, s: string, c: char)
    requires blank(c)
    ensures StripStart(blank, s) <= StripEnd(blank, s) <= |s|
    ensures var i, j := StripStart(blank, s), StripEnd(blank, s);
      && s + [c] == s[..i] + s[i..j] + (s[j..] + [c])
      && s[i..j] == Strip(blank, s)
      && AllBlank(blank, s[..i]) && AllBlank(blank, s[j..] + [c])
  {
    StripFrame(blank, s);
    var i, j := StripStart(blank, s), StripEnd(blank, s);
    CutSnoc(s, i, j, c);
    BlankSnoc(blank, s[j..], c);
  }

  /** Cutting `s` at `i <= j` and appending `c` to the last piece. */
  lemma CutSnoc<T>(s: seq<T>, i: nat, j: nat, c: T)
    requires i <= j <= |s|
    ensures s + [c] == s[..i] + s[i..j] + (s[j..] + [c])
  {
    assert s == s[..i] + s[i..j] + s[j..];
  }

  lemma BlankSnoc(blank: char -> bool, s: string, c: char)
    requires AllBlank(blank, s) && blank(c)
    ensures AllBlank(blank, s + [c])
  {
    assert forall i :: 0 <= i < |s| ==> (s + [c])[i] == s[i];
  }

  /** `int()` keeps a leading separator in the text it parses, and so
      rejects it. */
  lemma SeparatorHeadKept(c: char, s: string)
    requires '\U{001C}' <= c <= '\U{001F}'
    ensures Strip(IsIntSpace, [c] + s) != [] && Strip(IsIntSpace, [c] + s)[0] == c
    ensures ParseInt([c] + s) == None
  {
    var u := [c] + s;
    StripFrame(IsIntSpace, u);
    var i, j := StripStart(IsIntSpace, u), StripEnd(IsIntSpace, u);
    assert !IsIntSpace(u[0]);
    assert i == 0;
    assert j > 0;
    assert u[i..j][0] == c;
  }

  /** `int()` keeps a trailing separator in the text it parses, and so
      rejects it. */
  lemma SeparatorTailKept(c: char, s: string)
    requires '\U{001C}' <= c <= '\U{001F}'
    ensures var r := Strip(IsIntSpace, s + [c]); r != [] && r[|r| - 1] == c
    ensures ParseInt(s + [c]) == None
  {
    var u := s + [c];
    StripFrame(IsIntSpace, u);
    var i, j := StripStart(IsIntSpace, u), StripEnd(IsIntSpace, u);
    assert !IsIntSpace(u[|u| - 1]);
    assert j == |u|;
    assert i < j;
    assert u[i..j][j - i - 1] == c;
  }

  lemma NatToStrGroups(n: nat)
    ensures DigitGroups(NatToStr(n))
    ensures GroupsValue(NatToStr(n)) == n
  {
    FilterAll(NatToStr(n), IsDigit);
  }

  /** A string without surrounding blanks is its own `strip()`. */
  lemma StripUnpadded(blank: char -> bool, s: string)
    requires s != [] ==> !blank(s[0]) && !blank(s[|s| - 1])
    ensures Strip(blank, s) == s
  {
    assert [] + s + [] == s;
    StripPadded(blank, [], s, []);
  }

  lemma ParseUnsigned(t: string, m: nat)
    requires |t| > 0 && IsDigit(t[0]) && DigitGroups(t) && GroupsValue(t) == m
    ensures ParseTrimmed(t) == Some(m)
  {
  }

  lemma ParseNegative(d: string, m: nat)
    requires DigitGroups(d) && GroupsValue(d) == m
    ensures ParseTrimmed("-" + d) == Some(0 - m)
  {
    var t := "-" + d;
    assert |t| > 0 && t[0] == '-' && t[1..] == d;
    ParseMinus(t, m);
  }

  lemma ParseMinus(t: string, m: nat)
    requires |t| > 0 && t[0] == '-' && DigitGroups(t[1..]) && GroupsValue(t[1..]) == m
    ensures ParseTrimmed(t) == Some(0 - m)
  {
  }

  lemma DigitNotSpace(c: char)
    requires IsDigit(c) || c == '-'
    ensures !IsSpace(c)
  {
  }

  lemma ParseNatToStr(m: nat)
    ensures ParseInt(NatToStr(m)) == Some(m)
  {
    var s := NatToStr(m);
    DigitNotSpace(s[0]);
    DigitNotSpace(s[|s| - 1]);
    StripUnpadded(IsIntSpace, s);
    NatToStrGroups(m);
    ParseUnsigned(s, m);
  }

  lemma ParseNegToStr(m: nat)
    requires m > 0
    ensures ParseInt("-" + NatToStr(m)) == Some(0 - m)
  {
    var d := NatToStr(m);
    NatToStrGroups(m);
    ParseNegative(d, m);
    UnpaddedNegative(d);
  }

  /** A minus sign followed by a decimal form has no surrounding whitespace. */
  lemma UnpaddedNegative(d: string)
    requires |d| > 0 && IsDigit(d[|d| - 1])
    ensures Strip(IsIntSpace, "-" + d) == "-" + d
  {
    var s := "-" + d;
    assert s[0] == '-';
    assert s[|s| - 1] == d[|d| - 1];
    DigitNotSpace(s[0]);
    DigitNotSpace(d[|d| - 1]);
    StripUnpadded(IsIntSpace, s);
  }

  /** `int(str(n)) == n` for every integer. */
  lemma ParseIntToStr(n: int)
    ensures ParseInt(IntToStr(n)) == Some(n)
  {
    var m: nat := if n < 0 then -n else n;
    var s := IntToStr(n);
    if n < 0 {
      assert s == "-" + NatToStr(m);
      ParseNegToStr(m);
    } else {
      assert s == NatToStr(m);
      ParseNatToStr(m);
    }
  }

  /** `str` is injective, so distinct user ids give distinct keys. */
  lemma IntToStrInjective(a: int, b: int)
    requires IntToStr(a) == IntToStr(b)
    ensures a == b
  {
    ParseIntToStr(a);
    ParseIntToStr(b);
  }

  /** The decimal form of a number contains no underscore, so it never
      collides with a longer callback prefix. */
  lemma IntToStrNoUnderscore(n: int)
    ensures '_' !in IntToStr(n)
  {
    var d := NatToStr(if n < 0 then -n else n);
    assert forall i :: 0 <= i < |d| ==> d[i] != '_';
  }
}

=== FILE: workflows.dfy ===
/** First contact and the multi-step conversations: create an event, ask a
    speaker a question, answer a question, broadcast.  Each step either
    goes back to the menu on a "back" label, extends the continuation's
    context, or commits one change to the document. */
module Workflows {
  import opened Base
  import opened Seqs
  import opened Text
  import opened Store
  import opened Dialog

  // ---------------------------------------------------------------------
  // /start
  // ---------------------------------------------------------------------

  /** The role a user gets on first contact. */
  function InitialRole(cfg: Config, uid: int): Role {
    if uid == cfg.adminId then Admin else User
  }

  /** `/start`: a user without a role entry gets one (`admin` for the
      configured operator, `user` otherwise); an existing entry is never
      changed.  Then the main menu of the user's role is shown. */
  function Start(db: DB, cfg: Config, who: Sender): (r: Step)
    ensures Key(who.id) in r.db.roles
    ensures Key(who.id) in db.roles ==> r.db == db
    ensures Key(who.id) !in db.roles ==>
      && r.db.roles[Key(who.id)] == InitialRole(cfg, who.id)
      && (forall j :: j != Key(who.id) ==> Lookup(r.db.roles, j) == Lookup(db.roles, j))
      && r.db.(roles := db.roles) == db
    ensures r.reply == MainMenu(GetRole(r.db.roles, Key(who.id)))
    ensures r.session == NoSession && r.fanout == {} && r.direct == None
  {
    var k := Key(who.id);
    var d := if k in db.roles then db else db.(roles := db.roles[k := InitialRole(cfg, who.id)]);
    Quiet(d, NoSession, MainMenu(GetRole(d.roles, k)))
  }

  /** After `/start` the sender's role is `admin` exactly for the operator
      and `user` for everybody else, unless a role was already stored; a
      repeated `/start` changes nothing. */
  lemma StartAssignsOnce(db: DB, cfg: Config, who: Sender)
    ensures var r := Start(db, cfg, who);
      && (Key(who.id) !in db.roles ==>
            (GetRole(r.db.roles, Key(who.id)) == Admin <==> who.id == cfg.adminId))
      && (Key(who.id) !in db.roles ==>
            (GetRole(r.db.roles, Key(who.id)) == User <==> who.id != cfg.adminId))
      && (Key(who.id) in db.roles ==> GetRole(r.db.roles, Key(who.id)) == db.roles[Key(who.id)])
      && Start(r.db, cfg, who).db == r.db
  {
  }

  // ---------------------------------------------------------------------
  // Create an event
  // ---------------------------------------------------------------------

  /** `create_event_step1`: only speakers and admins may create events. */
  function CreateEventBegin(db: DB, who: Sender): (r: Step)
    ensures r.db == db && r.fanout == {} && r.direct == None
    ensures GetRole(db.roles, Key(who.id)) in {Speaker, Admin} ==> r.session == AwaitingTitle && r.reply == PromptTitle
    ensures GetRole(db.roles, Key(who.id)) == User ==> r.session == NoSession && r.reply == NotAllowed
  {
    if GetRole(db.roles, Key(who.id)) in {Speaker, Admin} then Quiet(db, AwaitingTitle, PromptTitle)
    else Quiet(db, NoSession, NotAllowed)
  }

  /** `create_event_step2`: the message becomes the title, unchanged. */
  function TitleStep(db: DB, who: Sender, text: string): (r: Step)
    ensures r.db == db && r.fanout == {} && r.direct == None
    ensures IsBack(text) ==> r.session == NoSession
    ensures !IsBack(text) ==> r.session == AwaitingDescription(text) && r.reply == PromptDescription
  {
    if IsBack(text) then BackToMenu(db, who)
    else Quiet(db, AwaitingDescription(text), PromptDescription)
  }

  /** The event `create_event_step3` appends. */
  function NewEvent(db: DB, who: Sender, title: string, description: string, now: int): Event {
    var k := Key(who.id);
    Event(title, description, k, Lookup(db.speakers, k).GetOr(who.firstName), now)
  }

  /** `create_event_step3`: appends exactly one event at the end, named
      after the speaker entry of the creator if there is one and after the
      creator's first name otherwise, and announces it to everybody else.
      The role is not checked again and the speaker table is not touched. */
  function DescriptionStep(db: DB, who: Sender, title: string, text: string, now: int): (r: Step)
    ensures IsBack(text) ==> r.db == db && r.session == NoSession && r.fanout == {}
    ensures !IsBack(text) ==>
      var k := Key(who.id);
      && |r.db.events| == |db.events| + 1
      && r.db.events[..|db.events|] == db.events
      && r.db.events[|db.events|].title == title
      && r.db.events[|db.events|].description == text
      && r.db.events[|db.events|].speakerId == k
      && r.db.events[|db.events|].speakerName == (if k in db.speakers then db.speakers[k] else who.firstName)
      && r.db.(events := db.events) == db
      && r.session == NoSession && r.reply == EventCreated
      && (forall u :: u in r.fanout <==> u in db.roles && u != k)
    ensures r.session == NoSession && r.fanout <= db.roles.Keys && r.direct == None
  {
    if IsBack(text) then BackToMenu(db, who)
    else
      var k := Key(who.id);
      var events := db.events + [NewEvent(db, who, title, text, now)];
      assert events[..|db.events|] == db.events;
      Step(db.(events := events), NoSession, EventCreated, Recipients(db.roles, k), None)
  }

  /** The whole create-event conversation: a speaker or admin who answers
      with a title and a description (neither a "back" label) adds exactly
      that event at the end of the list; a "back" at either step leaves the
      document as it was. */
  lemma CreateEventConversation(db: DB, who: Sender, title: string, description: string, now: int)
    requires GetRole(db.roles, Key(who.id)) != User
    ensures var s1 := CreateEventBegin(db, who);
      var s2 := TitleStep(s1.db, who, title);
      && s1.session == AwaitingTitle
      && (IsBack(title) ==> s2.db == db && s2.session == NoSession)
      && (!IsBack(title) ==>
            && s2.session == AwaitingDescription(title)
            && var s3 := DescriptionStep(s2.db, who, title, description, now);
            && (IsBack(description) ==> s3.db == db)
            && (!IsBack(description) ==>
                  && s3.db.events == db.events + [NewEvent(db, who, title, description, now)]
                  && s3.fanout == db.roles.Keys - {Key(who.id)}))
  {
    var s1 := CreateEventBegin(db, who);
    assert s1.db == db && s1.session == AwaitingTitle;
    var s2 := TitleStep(s1.db, who, title);
    assert s2.db == db;
    if !IsBack(title) && !IsBack(description) {
      DescriptionAppends(db, who, title, description, now);
    }
  }

  lemma DescriptionAppends(db: DB, who: Sender, title: string, description: string, now: int)
    requires !IsBack(description)
    ensures var s3 := DescriptionStep(db, who, title, description, now);
      && s3.db.events == db.events + [NewEvent(db, who, title, description, now)]
      && s3.fanout == db.roles.Keys - {Key(who.id)}
  {
    var s3 := DescriptionStep(db, who, title, description, now);
    assert s3.db.events == db.events + [s3.db.events[|db.events|]];
  }

  // ---------------------------------------------------------------------
  // Ask a speaker a question
  // ---------------------------------------------------------------------

  /** `ask_question_start`: remembers the chosen speaker's key. */
  function AskBegin(db: DB, speaker: string): (r: Step)
    ensures r.db == db && r.session == AwaitingQuestion(speaker) && r.reply == PromptQuestion
    ensures r.fanout == {} && r.direct == None
  {
    Quiet(db, AwaitingQuestion(speaker), PromptQuestion)
  }

  /** `send_question_to_speaker`: appends one unanswered question from the
      sender to the speaker `int(speaker)` and notifies that speaker.  When
      `int(speaker)` fails the handler raises before appending. */
  function QuestionStep(db: DB, who: Sender, speaker: string, text: string, now: int): (r: Step)
    ensures r.session == NoSession && r.fanout == {}
    ensures IsBack(text) || ParseInt(speaker).None? ==> r.db == db && r.direct == None
    ensures !IsBack(text) && ParseInt(speaker).None? ==> r.reply == Aborted
    ensures !IsBack(text) && ParseInt(speaker).Some? ==>
      && r.db == db.(questions := db.questions + [Question(who.id, ParseInt(speaker).value, text, None, now, None)])
      && r.direct == Some(ParseInt(speaker).value)
      && r.reply == QuestionSent
  {
    if IsBack(text) then BackToMenu(db, who)
    else
      match ParseInt(speaker)
      case None => Quiet(db, NoSession, Aborted)
      case Some(to) =>
        var q := Question(who.id, to, text, None, now, None);
        Step(db.(questions := db.questions + [q]), NoSession, QuestionSent, {}, Some(to))
  }

  // ---------------------------------------------------------------------
  // Answer a question
  // ---------------------------------------------------------------------

  /** `answer_question_start`: the argument indexes the sender's own list of
      questions (those addressed to them).  A bad number raises; an index
      outside that list is refused; neither changes anything nor starts a
      continuation.  Otherwise the continuation records where the picked
      question sits in the full log: the position of the question with
      exactly `idx` of the sender's questions before it. */
  function AnswerBegin(db: DB, who: Sender, session: Session, arg: string): (r: Step)
    ensures r.db == db && r.fanout == {} && r.direct == None
    ensures ParseInt(arg).None? ==> r.session == session && r.reply == Aborted
    ensures ParseInt(arg).Some? ==>
      var idx := ParseInt(arg).value;
      var mine := QuestionsTo(db.questions, who.id);
      && (idx < 0 || idx >= |mine| ==> r.session == session && r.reply == InvalidIndex)
      && (0 <= idx < |mine| ==>
            && r.session.AwaitingAnswer?
            && r.session.position < |db.questions|
            && db.questions[r.session.position] == mine[idx]
            && db.questions[r.session.position].to == who.id
            && |QuestionsTo(db.questions[..r.session.position], who.id)| == idx
            && r.reply == PromptAnswer(mine[idx].text))
  {
    match ParseInt(arg)
    case None => Quiet(db, session, Aborted)
    case Some(idx) =>
      if idx < 0 || idx >= |QuestionsTo(db.questions, who.id)| then Quiet(db, session, InvalidIndex)
      else
        var pos := NthIndex(db.questions, AddressedTo(who.id), idx);
        Quiet(db, AwaitingAnswer(pos), PromptAnswer(db.questions[pos].text))
  }

  /** The question at `pos` with its answer and answer time set. */
  function SetAnswer(questions: seq<Question>, pos: nat, text: string, now: int): (r: seq<Question>)
    requires pos < |questions|
    ensures |r| == |questions|
    ensures r[pos] == questions[pos].(answer := Some(text), answeredAt := Some(now))
    ensures forall j :: 0 <= j < |questions| && j != pos ==> r[j] == questions[j]
  {
    questions[pos := questions[pos].(answer := Some(text), answeredAt := Some(now))]
  }

  /** `answer_question_finish`: sets the answer and its time on exactly the
      picked question, leaves every other question as it was, and notifies
      the asker. */
  function AnswerStep(db: DB, who: Sender, pos: nat, text: string, now: int): (r: Step)
    ensures r.session == NoSession && r.fanout == {}
    ensures IsBack(text) || pos >= |db.questions| ==> r.db == db && r.direct == None
    ensures !IsBack(text) && pos < |db.questions| ==>
      && r.db == db.(questions := SetAnswer(db.questions, pos, text, now))
      && r.direct == Some(db.questions[pos].from)
      && r.reply == AnswerSent
  {
    if IsBack(text) then BackToMenu(db, who)
    else if pos < |db.questions| then
      Step(db.(questions := SetAnswer(db.questions, pos, text, now)), NoSession, AnswerSent, {}, Some(db.questions[pos].from))
    else Quiet(db, NoSession, AnswerSent)
  }

  /** `user_answers`: the sender's answered questions, in log order and
      with their multiplicities. */
  function MyAnswers(db: DB, who: Sender): (r: Step)
    ensures r.db == db && r.session == NoSession
    ensures r.reply.AnswersView?
    ensures r.reply.questions == AnswersOf(db.questions, who.id)
    ensures forall q :: q in r.reply.questions <==>
      q in db.questions && q.from == who.id && q.answer.Some? && q.answer.value != ""
    ensures IsSubsequence(r.reply.questions, db.questions)
    ensures forall q :: multiset(r.reply.questions)[q] == if AnsweredFor(who.id)(q) then multiset(db.questions)[q] else 0
  {
    Quiet(db, NoSession, AnswersView(AnswersOf(db.questions, who.id)))
  }

  /** Question and answer, end to end: a question the asker sends to a
      speaker becomes the last entry of that speaker's list; picking it by
      its index there and answering with a non-empty text puts the
      question, with that answer, into the asker's answers view. */
  lemma QuestionAnswerRoundTrip(db: DB, asker: Sender, speaker: Sender, question: string,
                                answer: string, n1: int, n2: int)
    requires !IsBack(question) && !IsBack(answer) && answer != ""
    ensures var s1 := QuestionStep(db, asker, Key(speaker.id), question, n1);
      var idx := |QuestionsTo(db.questions, speaker.id)|;
      var s2 := AnswerBegin(s1.db, speaker, NoSession, IntToStr(idx));
      && s1.db.questions == db.questions + [Question(asker.id, speaker.id, question, None, n1, None)]
      && s1.direct == Some(speaker.id)
      && s2.session == AwaitingAnswer(|db.questions|)
      && var s3 := AnswerStep(s1.db, speaker, |db.questions|, answer, n2);
      && s3.direct == Some(asker.id)
      && Question(asker.id, speaker.id, question, Some(answer), n1, Some(n2)) in MyAnswers(s3.db, asker).reply.questions
  {
    var q := Question(asker.id, speaker.id, question, None, n1, None);
    var s1 := QuestionStep(db, asker, Key(speaker.id), question, n1);
    assert s1.db.questions == db.questions + [q] by {
      ParseIntToStr(speaker.id);
    }
    PickNewest(db, s1.db, q, speaker);
    var s3 := AnswerStep(s1.db, speaker, |db.questions|, answer, n2);
    var answered := q.(answer := Some(answer), answeredAt := Some(n2));
    assert s3.db.questions[|db.questions|] == answered;
    assert answered in s3.db.questions;
    assert answered in MyAnswers(s3.db, asker).reply.questions;
  }

  /** The newest question of a speaker is the last entry of their list, and
      picking that entry selects its position in the full log. */
  lemma PickNewest(db: DB, db': DB, q: Question, speaker: Sender)
    requires q.to == speaker.id
    requires db' == db.(questions := db.questions + [q])
    ensures AnswerBegin(db', speaker, NoSession, IntToStr(|QuestionsTo(db.questions, speaker.id)|)).session
            == AwaitingAnswer(|db.questions|)
  {
    var idx := |QuestionsTo(db.questions, speaker.id)|;
    ParseIntToStr(idx);
    NthIndexOfLast(db.questions, q, AddressedTo(speaker.id));
    PickAt(db', speaker, IntToStr(idx), idx);
  }

  /** Picking entry `idx` of the speaker's list waits for the answer to the
      `idx`-th question addressed to them. */
  lemma PickAt(db: DB, speaker: Sender, arg: string, idx: nat)
    requires ParseInt(arg) == Some(idx) && idx < |QuestionsTo(db.questions, speaker.id)|
    ensures AnswerBegin(db, speaker, NoSession, arg).session
            == AwaitingAnswer(NthIndex(db.questions, AddressedTo(speaker.id), idx))
  {
  }

  // ---------------------------------------------------------------------
  // Broadcast
  // ---------------------------------------------------------------------

  /** `send_broadcast_message`: every known user but the sender is
      notified; the text is sent as is, a "back" label included. */
  function BroadcastStep(db: DB, who: Sender, text: string): (r: Step)
    ensures r.db == db && r.session == NoSession && r.reply == BroadcastSent
    ensures forall u :: u in r.fanout <==> u in db.roles && u != Key(who.id)
    ensures r.fanout <= db.roles.Keys && r.direct == None
  {
    Step(db, NoSession, BroadcastSent, Recipients(db.roles, Key(who.id)), None)
  }
}
